=== FILE: README.md ===
# Blackjack card counting: a Dafny model

This project models the two Blackjack engines of the repository.

- **`PolicyIteration.py`** is the policy-driven engine. It draws a random bet.
  The player acts by looking the current `State` (player sum, dealer value,
  running count) up in a policy map. `initialize_policy` builds the first,
  random policy.
- **`simulator.py`** is the count-based engine. It sizes the bet from the
  Hi-Lo true count, which is the running count divided by the remaining
  decks rounded to a tenth. The player follows a fixed "hit below 17"
  strategy.

The two `BlackjackGame` classes behave the same in several places:
`create_deck`, `deal_card`, `update_count`, `calculate_value`, `reset`, the
opening deal, the dealer's turn, settlement and the `play_game` guard. Each of
these is modelled once and used by both engines. The dealer's turn is written
differently in the two files. `PolicyIteration.py:161-162` deals each card
uncounted and then calls `update_count` on it. `simulator.py:171` deals it
counted. Both count every dealer draw once, so one definition serves both.

Modules:

- `Cards`: ranks, hand valuation, Hi-Lo weights and the unshuffled shoe.
- `Dealing`: the shoe with its running count, dealing, the opening deal and
  the dealer's turn.
- `Engine`: the game record shared by both engines, settlement, the
  end-of-round bookkeeping, `reset` and the game-loop guard.
- `PolicyIteration` and `Simulator`: the engine-specific parts.
- `Outcomes`: the error results.

The model is built from immutable values and pure functions. A game is a
`Game` value: money, money history, transition history, and a `Table`
holding the shoe and the running count. The shoe is a sequence whose last
element is the top card, because `deal_card` pops from the end of a list.
Every operation returns a new `Game`. Money is an exact `real`, so a natural
pays exactly 1.5 times the bet.

Where Python raises, the model returns a `Failure`:

- `DeckExhausted` when a card is popped from an empty shoe;
- `UnknownState` when the policy has no entry for a state (a `KeyError`).

One more `Failure` stands for a hang rather than an exception:
`BetNeverAccepted` ends the bet resampling loop when it accepts no draw from
the given random stream. Python would go on drawing forever
(`PolicyIteration.py:113-117`).

Randomness becomes an input:

- the shuffled shoe: any permutation of `create_deck(n)`;
- the stream of values `random.choices` returns;
- the 180 choices `initialize_policy` draws.

Behaviour worth knowing:

- **The hole card is counted only after a natural.** Only the natural branch
  counts it (`PolicyIteration.py:138`, `simulator.py:144`). In every other
  round it stays uncounted for the rest of the shoe. `PolicyIteration.PlayRound`
  and `Simulator.PlayRound` state this count exactly.
- **The remaining decks are rounded to tenths.** The comment at
  `simulator.py:105` speaks of the nearest half deck, but `round(x, 1)`
  rounds to tenths. The model rounds to tenths, as the code does.
- **The simulator's decision lags one card.** Its decision tests the player
  sum of the most recently built `state`, and a hit rebuilds that state
  before drawing. So every decision after the first hit looks at the total
  from before the latest card. The model keeps this behaviour.
  `Simulator.DecidesOnRecordedState` states it and
  `Simulator.HitsAgainAfterFirstDraw` shows one consequence: a player who
  hits below 17 and does not bust always hits a second time.
- **The count-based game never runs out of cards.** A hand that stays
  below 17 card by card has at most 11 cards (`Cards.LowShapeIsShort`).
  The lagged player hits only while the tested hand is below 17, and the
  dealer draws only while below 17. So a round takes at most 25 cards, and
  `play_game` (`simulator.py:191`) starts a round only with 27 or more.
  `Simulator.PlayGame` therefore returns a game, not a `Result`. No such
  bound is stated for the policy-driven game: a policy may keep hitting
  while the hand is worth 21 or less, and `PolicyIteration.PlayGameFailsInRound`
  only bounds the shoe of the round that runs out.

## Model

| member | source | states |
|---|---|---|
| Cards.HiLo | PolicyIteration.py:87-92 | The Hi-Lo weight is +1 exactly for ranks 2 to 6, -1 exactly for 10, J, Q, K and A, and 0 exactly for 7 to 9. |
| Dealing.UpdateCount | PolicyIteration.py:87-92 | Seeing one card raises the running count by one for a low card, lowers it by one for a high card, and leaves it unchanged for 7 to 9. |
| Cards.Demote | PolicyIteration.py:107-109 | The ace-demotion loop lowers the total by a multiple of 10, by at most 10 per ace. It stops at 21 or below unless every ace is already demoted. It never demotes a total that ends at 11 or below. |
| Cards.HandValue | PolicyIteration.py:94-111 | A hand's value lies between its hard total (all aces as 1) and its raw total (all aces as 11), and differs from the raw total by a multiple of 10. It is at most 21 unless even the hard total busts. An ace is demoted only when the value ends above 11. |
| Cards.HardTotalIsAllAcesAsOne | PolicyIteration.py:97-105 | Counting every ace as 1 is the raw total minus 10 per ace. A hand of n cards has between 0 and n aces and a hard total of at least n. |
| Cards.HandValueAtLeastSize | PolicyIteration.py:94-111 | A hand is worth at least its number of cards. |
| Cards.SoftTotalsSkip | PolicyIteration.py:94-111 | A hand with an ace and a hard total from 7 to 11 counts one ace as 11, which makes it worth 17 to 21. So a hand with an ace worth less than 17 has a hard total of at most 6 or at least 12. |
| Cards.LowShapeGrows | PolicyIteration.py:94-111 | Adding a card that keeps the hand below 17 keeps its shape: without an ace the hard total is at least twice the size, and with one the hard total is at most 6 or at least the size plus 5. |
| Cards.LowShapeIsShort | PolicyIteration.py:94-111 | A hand of that shape worth less than 17 has at most 11 cards. Six aces, a six and four more aces reach this bound. |
| Cards.HandValueIsBestTotal | PolicyIteration.py:94-111 | No way of counting some aces as 1 and the rest as 11 gives a total of 21 or less that beats the value. When the value busts, every such choice busts. |
| Cards.HandValueOrderIndependent | PolicyIteration.py:94-111 | Two hands with the same cards in any order have the same value. |
| Cards.CalculateValue | PolicyIteration.py:94-111 | The one-pass loop, with its ace counter and demotion loop, computes exactly the hand value defined from the totals. |
| Cards.HandValueExamples | PolicyIteration.py:94-111 | Worked values: A+6 is a soft 17, A+6+8 is a hard 15, K+Q is 20, A+A+9 is 21, and the empty hand is 0. |
| Cards.HiLoTotalByRanks | PolicyIteration.py:87-92 | The net count change over any cards is the number of low cards minus the number of high cards. |
| Cards.BalancedHiLo | PolicyIteration.py:87-92 | Cards that hold every rank equally often have a net Hi-Lo count of zero. |
| Cards.OneDeckCounts | PolicyIteration.py:75-77 | One suit-by-suit deck has 52 cards, each card once and each rank four times. |
| Cards.FreshDeckCounts | PolicyIteration.py:74-79 | The shoe of n decks has 52n cards, each card n times and each rank 4n times. |
| Cards.ShuffledShoeCounts | PolicyIteration.py:74-79 | Any shuffle of the n-deck shoe keeps those counts, and its net Hi-Lo count is zero. |
| Dealing.Deal | PolicyIteration.py:81-85 | Dealing fails exactly on an empty shoe. Otherwise it returns the top card and the shoe without it, and changes the count by that card's weight only when the card is counted. |
| Dealing.DealOpening | PolicyIteration.py:124-128 | The opening deal fails exactly when fewer than four cards remain. Otherwise the player gets the 1st and 3rd cards from the top and the dealer the 2nd (up-card) and 4th (hole card). The shoe loses four cards, and all four are counted except the hole card. |
| Dealing.OpenedCount | PolicyIteration.py:124-131 | The count in the initial state is the count before the deal plus the weights of the two player cards and the up-card. The shoe after the deal is the old shoe without its top four cards. |
| Dealing.OpeningThenDraws | PolicyIteration.py:124-162 | From the opening deal through any later counted draws, the shoe is the old shoe minus its top cards. Every card taken is counted once, except the hole card. |
| Dealing.DealerTurn | PolicyIteration.py:159-162 | The dealer draws the top cards of the shoe, each counted, and stops at the first hand worth 17 or more. Every hand before that was worth less than 17. The turn fails exactly when no number of cards from the shoe, the whole shoe included, brings the hand to 17. |
| Dealing.DealerShortStep | PolicyIteration.py:160-162 | The shoe is too short for the dealer exactly when the hand is below 17 and the shoe without its top card is too short for the hand with that card. |
| Dealing.DealerTurnSucceeds | PolicyIteration.py:159-162 | A dealer dealt two cards always reaches 17 when the shoe holds at least 10 more. A hand that stays below 17 on every card has at most 11 cards. |
| Dealing.DealerTurnFromLowHand | PolicyIteration.py:159-162 | A dealer whose hand below 17 has that shape reaches 17 whenever the hand and the shoe hold 12 cards between them. |
| Dealing.DealerDrewStops | PolicyIteration.py:160-162 | A finished dealer's turn stopped at the first hand worth 17: drawing fewer of its cards leaves the hand below 17. |
| Engine.NewGame | PolicyIteration.py:62-72 | A new game keeps the starting money and the number of decks it was given, and deals from the given shuffled shoe. It starts with that money, a money history of just that amount, no transitions and a zero count. Its shoe has 52n cards, 4n of each rank, and a net Hi-Lo count of zero. |
| Engine.Reset | PolicyIteration.py:186-190 | A reset brings back the starting money and restarts both histories. The new shoe has the full 52n cards. The running count is carried over unchanged. |
| Engine.Settle | PolicyIteration.py:164-172 | The player wins the bet when the dealer busts or has less, loses it when the dealer has more, and pushes on a tie. |
| Engine.SettleAntisymmetric | PolicyIteration.py:164-172 | When neither side busts, swapping the two totals negates the reward. |
| Engine.SettleExamples | PolicyIteration.py:164-172 | Worked settlements: 20 against 19 wins, 18 against a dealer's 22 wins, 17 against 17 pushes, and 17 against 19 loses. |
| Engine.HitCountsPrepend | PolicyIteration.py:154-158 | A hit that records the count after its card, followed by the rest of the turn from the shoe after that card, gives a turn whose every hit records the count with all cards up to it counted. |
| Engine.EndRound | PolicyIteration.py:174-178 | Closing a round moves the money by the reward, appends the new money to the money history and the round's transitions to the history, and keeps the money history ending in the current money. |
| Engine.GameExtendsByRound | PolicyIteration.py:174-184 | A booked round followed by more rounds extends the record as a run of rounds does. Both histories keep their old entries. Each round adds one money entry and at least one transition. Each money entry lies between nothing and 2.5 times the one before it, which was positive. The shoe loses at least four cards per round, all from the top. A run of no rounds changes nothing. |
| PolicyIteration.SampleBet | PolicyIteration.py:113-117 | The accepted bet is the first draw that does not exceed the money, and every earlier draw exceeded it. Sampling fails exactly when every draw in the stream exceeds the money. |
| PolicyIteration.SampleBetNeverEndsBelowMinimum | PolicyIteration.py:113-117 | With less money than the smallest bet, no draw is ever accepted. |
| PolicyIteration.PlayerTurn | PolicyIteration.py:143-176 | The player's turn fails only when the shoe runs out or a policy entry is missing. Every transition starts from the round's initial state, and each action after the first is the policy's choice for the state before it. Hits that do not bust pay nothing. A bust loses the bet and leaves the shoe less one card per hit. A stand is settled against the dealer's total after drawing to the first hand worth 17. Each recorded total matches the cards dealt off the top of the shoe. After the k-th hit the recorded count is the count before the turn plus the weights of the top k cards. The last transition shows the count the turn leaves. |
| PolicyIteration.PlayerTurnNeverRunsOut | PolicyIteration.py:143-162 | A turn never runs out of cards when the player holds at most 21 cards and the hand and shoe hold 31 between them. It can fail only on a missing policy entry. |
| PolicyIteration.BustTurn | PolicyIteration.py:148-153 | A hit that busts ends the turn with one transition that loses the bet and shows the dealer's two cards. |
| PolicyIteration.HitTurn | PolicyIteration.py:154-158 | A hit that does not bust, followed by the policy-driven rest of the turn, is again a complete turn. |
| PolicyIteration.HitPrepends | PolicyIteration.py:154-158 | Putting a non-busting, zero-reward hit before the rest of a turn keeps the turn's record: the policy choices, the last transition's reward and the settlement rule. |
| PolicyIteration.StandTurn | PolicyIteration.py:159-176 | A stand records one transition that shows the player's total and the dealer's final total, settled against it. |
| PolicyIteration.PlayRound | PolicyIteration.py:119-179 | A round fails only when the shoe runs out or a policy entry is missing, and always on a shoe of fewer than four cards. A completed round books its reward into the money and its transitions into the history, all starting from the initial state. The count rises by every card dealt, except a hole card never revealed, and the last transition shows that count. A natural is one stand paid 3:2, or a push against a dealer natural. Otherwise the round follows the policy, a bust leaves the shoe less the cards taken, and a stand is settled against the dealer's first hand worth 17. Every hit before the last shows a player total of at most 21 against the up-card alone, and the count with every card up to it counted. |
| PolicyIteration.PlayRoundNeverRunsOut | PolicyIteration.py:119-179 | A round on a shoe of at least 33 cards never runs out of cards. It can fail only on a missing policy entry. |
| PolicyIteration.RoundFromOpening | PolicyIteration.py:130-179 | After the opening deal the round books and records as `PlayRound` states. |
| PolicyIteration.NaturalRound | PolicyIteration.py:133-141 | A natural records a single stand from the initial state that shows 21 against the dealer's two cards. It deals no more cards, counts the hole card, and pays 1.5 times the bet, or nothing when the dealer also has 21. |
| PolicyIteration.PlayedRound | PolicyIteration.py:142-178 | Without a natural, the round is the policy-driven turn from the initial state on the shoe after the deal. Every card dealt except the hole card is counted, each hit's recorded total and count match the cards taken so far, and each hit that does not end the round shows the up-card alone. A bust leaves the shoe less the cards taken. A stand shows the dealer's first hand worth 17. |
| PolicyIteration.ConsultedKey | PolicyIteration.py:143-158 | In a round without a natural, the policy key looked up after the i-th hit is exactly the state of the opening cards plus the next i+1 cards, the up-card alone, and the count with all of them counted. The next action is the policy's entry for that key. |
| PolicyIteration.RoundRewardValues | PolicyIteration.py:133-176 | A round's reward is always 0, the bet, minus the bet, or 1.5 times the bet. |
| PolicyIteration.RoundKeepsMoney | PolicyIteration.py:113-184 | A round played with a bet the sampler accepted ends with between nothing and 2.5 times the money it started with. |
| PolicyIteration.PlayGame | PolicyIteration.py:181-184 | A finished game has no money left or at most 26 cards in the shoe, and the rounds played only extended the record, as `GameExtendsByRound` describes. A game allowed to start plays at least one round. A game that may not continue is returned unchanged. It fails only when the shoe runs out, a policy entry is missing or the bet loop accepts no draw. |
| PolicyIteration.PlayGameFailsInRound | PolicyIteration.py:181-184 | A failed game failed in a round that complete rounds from the start lead to and that may start: either the bet loop accepted no draw there, or the round played with the accepted bet failed the same way. A game runs out of cards only in a round starting with fewer than 33 cards. |
| PolicyIteration.PlayGameIsRounds | PolicyIteration.py:181-184 | A finished game is reached from the start by complete rounds, each allowed to start, with a bet the sampler accepted. |
| PolicyIteration.RoundsExtend | PolicyIteration.py:181-184 | Complete rounds extend the record as `GameExtendsByRound` describes. |
| PolicyIteration.PlayGameHangsWhenBroke | PolicyIteration.py:181-184 | With some money but less than 25 and a shoe of more than 26 cards, the game can never finish: the bet loop accepts no draw. |
| PolicyIteration.DomainIndex | PolicyIteration.py:195-196 | Each state the initial policy covers has a position from 0 to 179 in loop order. |
| PolicyIteration.DomainIndexInjective | PolicyIteration.py:195-197 | Two covered states at the same position are the same state. |
| PolicyIteration.InitializePolicy | PolicyIteration.py:193-200 | The initial policy has exactly 180 keys: player sums 4 to 21, dealer values 1 to 10, count 0. Each key gets the choice drawn at its position in loop order. |
| PolicyIteration.AceUpCardMissesInitialPolicy | PolicyIteration.py:131-143 | An ace up-card is valued 11, which the initial policy does not cover. With that policy, every round without a natural and with an ace showing fails on the lookup. |
| Simulator.RemainingTenths | simulator.py:103-105 | The remaining decks, in tenths, are the nearest tenth to cards/52, and an exact tie goes to the even tenth. |
| Simulator.RemainingTenthsUnique | simulator.py:103-105 | That rounding has exactly one answer. |
| Simulator.BetTier | simulator.py:113-120 | The tier is one of 25, 50, 75 or 100. It is 100 exactly from a true count of 5, at least 75 exactly from 3, and at least 50 exactly from 1. |
| Simulator.GetBetAmount | simulator.py:107-122 | The bet is the smaller of the money and the tier for the true count: it never exceeds either, and equals one of them. So it is at most 100, and at least 25 whenever the player has 25. |
| Simulator.BetTierMonotone | simulator.py:113-120 | A higher true count never gives a lower tier. |
| Simulator.GetBetAmountMonotone | simulator.py:107-122 | With the same money, a higher true count never gives a lower bet. |
| Simulator.EmptyShoeBetsMinimum | simulator.py:109-110 | An empty shoe is estimated at zero decks, so the true count is taken as 0 and the bet is the lowest tier. |
| Simulator.FixedTurn | simulator.py:150-186 | The fixed-strategy turn fails only when the shoe runs out. Each decision tests the most recently recorded state. A hit records the state from before its card. Hits that do not bust pay nothing. A bust loses the bet and leaves the shoe less one card per hit. A stand is settled against the dealer's total after drawing to the first hand worth 17. Each recorded total matches the cards dealt off the top of the shoe. After the k-th hit the recorded count includes the top k cards and the deck estimate is that of the shoe minus k cards. The last transition shows the count and estimate the turn leaves. |
| Simulator.HitDecksPrepend | simulator.py:152-168 | A hit that records the estimate after its card, followed by the rest of the turn, gives a turn whose every hit records the estimate of the cards then left. |
| Simulator.FixedTurnNeverRunsOut | simulator.py:150-172 | A turn always completes when the hand and the shoe hold 23 cards between them, with a hand of 2 to 13 cards whose tested hand, if below 17, has the shape. The player hits only while the tested hand is below 17, so the hand stops by 13 cards and leaves the dealer the 10 it may need. |
| Simulator.TestedAfterHit | simulator.py:150-168 | After a hit the decision tests the hand as it was before the hit's card, and that hand keeps the shape when it is below 17. |
| Simulator.HitShownPrepend | simulator.py:152-168 | A counted hit before the rest of a turn keeps the turn's recorded totals, counts and deck estimates in step with the cards dealt. |
| Simulator.BustTurn | simulator.py:156-163 | A hit that busts records the state from before the card and loses the bet. |
| Simulator.HitTurn | simulator.py:152-168 | A hit that does not bust, followed by the rest of the turn entered with the state from before the card, is again a complete turn. |
| Simulator.FixedHitPrepends | simulator.py:152-168 | A non-busting hit before the rest of a turn keeps the turn's decision and recording rules, and its outcome. |
| Simulator.StepsPrepend | simulator.py:150-168 | After a hit, the next decision tests the state recorded before that hit's card. |
| Simulator.StandTurn | simulator.py:169-186 | A stand records the tested state and the final totals, settled against a dealer total of at least 17. |
| Simulator.PlayRound | simulator.py:124-188 | A round fails only when the shoe runs out, and always on a shoe of fewer than four cards. A completed round books its reward and transitions. The count rises by every card dealt, except a hole card never revealed, and the last transition shows that count and the estimate of the shoe left. A natural is one stand paid 3:2 on the true-count bet, or a push. Otherwise the player stands at once exactly when the initial total is at least 17, and the round follows the lagged fixed strategy: each hit records the state the previous hit led to. A bust leaves the shoe less the cards taken, and a stand is settled against the dealer's first hand worth 17. Each hit shows its count and estimate, and a hit that does not end the round shows the up-card alone. |
| Simulator.PlayRoundNeverRunsOut | simulator.py:124-188 | A round on a shoe of at least 25 cards always completes. |
| Simulator.NaturalRound | simulator.py:139-148 | A natural records a single stand from the initial state, counts the hole card, and pays 1.5 times the bet, or nothing against a dealer natural. |
| Simulator.PlayedRound | simulator.py:149-188 | Without a natural, the round is the fixed-strategy turn from the initial state on the shoe after the deal, with the bet chosen before the deal. Its steps chain as the lagged strategy records them, and each hit's total, count and estimate match the cards taken so far. A bust leaves the shoe less the cards taken. A stand shows the dealer's first hand worth 17. |
| Simulator.HitNextState | simulator.py:150-168 | In a round without a natural, the i-th hit that does not end the round leads to the state of the opening cards plus the next i+1 cards, the up-card alone, the count with all of them counted, and the estimate for the cards then left. A following hit records exactly that state. |
| Simulator.HitStateRecorded | simulator.py:150-168 | The per-hit totals, counts and estimates of a turn pin down the state a non-final hit leads to. |
| Simulator.HitsAgainAfterFirstDraw | simulator.py:150-168 | Starting below 17 the player hits. If that card does not bust, the player always hits again, whatever total the card made. |
| Simulator.RoundRewardValues | simulator.py:139-186 | A round's reward is always 0, the bet, minus the bet, or 1.5 times the bet. |
| Simulator.RoundKeepsMoney | simulator.py:107-193 | A round allowed to start ends with between nothing and 2.5 times the money it started with. |
| Simulator.PlayGame | simulator.py:190-193 | A game never fails: every round it starts has at least 27 cards. A finished game has no money left or at most 26 cards in the shoe, and the rounds played only extended the record, as `GameExtendsByRound` describes. A game allowed to start plays at least one round, and one that may not continue is returned unchanged. |
| Simulator.PlayGameIsRounds | simulator.py:190-193 | The finished game is reached from the start by complete rounds, each allowed to start. |
| Simulator.RoundsExtend | simulator.py:190-193 | Complete rounds extend the record as `GameExtendsByRound` describes. |

## Left out

- `plot_lines`, the command-line entry points, printing and `__str__`: presentation only.
- `policy_evaluation`, `policy_improvement` and `policy_iteration`: they fail as written. Evaluation resets the game first (`PolicyIteration.py:207`). It then builds a state with player sum 0 (`PolicyIteration.py:211`), which no policy from `initialize_policy` covers, so the lookup at `PolicyIteration.py:214` raises `KeyError`. Past that, it passes an action string where `play_round` expects a policy (`PolicyIteration.py:215`). Improvement values a `State` as if it were a hand of cards (`PolicyIteration.py:229`).
- `random.shuffle`, `random.choices` and `random.choice`: they are inputs. A shuffle is any permutation of the unshuffled shoe. A draw stream is any sequence of allowed bets. The policy's choices are any 180 actions. Probabilities and weights are not modelled.
- The simulator's `__main__` block and its constants (150 starting money, one episode).
- PolicyIteration.SampleBet: the loop would redraw forever, while the model's stream of draws is finite. A stream with no acceptable draw gives `BetNeverAccepted` instead of a hang.
- PolicyIteration.PlayRound: a `KeyError` or `IndexError` in the middle of a round leaves Python's game half-updated (cards popped, count moved). The model returns only the error and drops that partial state.
- Simulator.PlayRound: same as above for an `IndexError` in the middle of a round.
- PolicyIteration.PlayerTurn: when the shoe runs out is not stated exactly. `PlayerTurnNeverRunsOut` gives a shoe length that is always enough, and `DealerTurn` gives the exact condition for the dealer's part. The game loop inherits this: `PlayGameFailsInRound` bounds the shoe of the round that runs out, but does not pin it down.
- Simulator.FixedTurn: likewise, `FixedTurnNeverRunsOut` gives a shoe length that is always enough, not the exact condition. The rounds inherit this (`PlayRoundNeverRunsOut`); for the game loop the bound is enough to show it never fails.
- Simulator.RemainingTenths: rounds the exact quotient cards/52 to tenths with ties to even. Python rounds the binary float of the quotient, and float rounding is not reproduced.
- Simulator.TrueCount: divides exactly. The float division and the comparisons against 1, 3 and 5 are not modelled bit for bit.
- Integer widths: Python integers are unbounded, and so are the model's.

=== FILE: cards.dfy ===
/** Cards, hand valuation, the Hi-Lo count and the unshuffled shoe.

Both engines share this code verbatim: `calculate_value`, `update_count`
and `create_deck` are the same in the policy-iteration engine and in the
count-based simulator.
 */
module Cards {

  datatype Rank = Two | Three | Four | Five | Six | Seven | Eight | Nine | Ten
                | Jack | Queen | King | Ace

  /** Suits only tell the copies of a rank apart; they never affect a value. */
  datatype Suit = Hearts | Diamonds | Clubs | Spades

  datatype Card = Card(rank: Rank, suit: Suit)

  /** The ranks and suits in the order the deck builder enumerates them. */
  const Ranks: seq<Rank> := [Two, Three, Four, Five, Six, Seven, Eight, Nine, Ten, Jack, Queen, King, Ace]
  const Suits: seq<Suit> := [Hearts, Diamonds, Clubs, Spades]

  /** The points a card adds before any ace is demoted: face cards 10,
      numerals their number, an ace 11. */
  function PipValue(r: Rank): nat {
    match r
    case Two => 2
    case Three => 3
    case Four => 4
    case Five => 5
    case Six => 6
    case Seven => 7
    case Eight => 8
    case Nine => 9
    case Ten => 10
    case Jack => 10
    case Queen => 10
    case King => 10
    case Ace => 11
  }

  /** The Hi-Lo weight of a rank: +1 for 2..6, -1 for 10, J, Q, K, A, 0 for 7..9. */
  function HiLo(r: Rank): (d: int)
    ensures d == 1 <==> r in {Two, Three, Four, Five, Six}
    ensures d == -1 <==> r in {Ten, Jack, Queen, King, Ace}
    ensures d == 0 <==> r in {Seven, Eight, Nine}
  {
    match r
    case Two | Three | Four | Five | Six => 1
    case Seven | Eight | Nine => 0
    case _ => -1
  }

  // ---------------------------------------------------------------------
  // Sums over a sequence of cards
  // ---------------------------------------------------------------------

  /** The sum of `f` over `s`, peeled from the end (the end of a deck is its top). */
  function SumBy<T>(s: seq<T>, f: T -> int): int {
    if |s| == 0 then 0 else SumBy(s[..|s| - 1], f) + f(s[|s| - 1])
  }

  lemma SumByPush<T>(s: seq<T>, x: T, f: T -> int)
    ensures SumBy(s + [x], f) == SumBy(s, f) + f(x)
  {
    assert (s + [x])[..|s|] == s;
  }

  lemma {:induction false} SumByAppend<T>(a: seq<T>, b: seq<T>, f: T -> int)
    ensures SumBy(a + b, f) == SumBy(a, f) + SumBy(b, f)
    decreases |b|
  {
    if |b| == 0 {
      assert a + b == a;
    } else {
      var b' := b[..|b| - 1];
      assert (a + b)[..|a + b| - 1] == a + b';
      SumByAppend(a, b', f);
    }
  }

  lemma MultisetCancel<T>(m: multiset<T>, n: multiset<T>, x: T)
    requires m + multiset{x} == n + multiset{x}
    ensures m == n
  {
    assert forall y :: m[y] == (m + multiset{x})[y] - (if y == x then 1 else 0);
    assert forall y :: n[y] == (n + multiset{x})[y] - (if y == x then 1 else 0);
  }

  /** A sum over a sequence depends only on its multiset of elements. */
  lemma {:induction false} SumByPermutation<T>(a: seq<T>, b: seq<T>, f: T -> int)
    requires multiset(a) == multiset(b)
    ensures SumBy(a, f) == SumBy(b, f)
    decreases |a|
  {
    if |a| == 0 {
      assert |b| == |multiset(b)| == 0;
    } else {
      var x, a' := a[|a| - 1], a[..|a| - 1];
      assert a == a' + [x];
      assert x in multiset(b);
      var i :| 0 <= i < |b| && b[i] == x;
      var l, r := b[..i], b[i + 1..];
      assert b == l + [x] + r;
      assert multiset(a') + multiset{x} == multiset(l + r) + multiset{x} by {
        assert multiset(a) == multiset(a') + multiset{x};
        assert multiset(b) == multiset(l) + multiset{x} + multiset(r);
        assert multiset(l + r) == multiset(l) + multiset(r);
      }
      MultisetCancel(multiset(a'), multiset(l + r), x);
      SumByPermutation(a', l + r, f);
      SumByPush(a', x, f);
      SumByAppend(l, r, f);
      SumByPush(l, x, f);
      SumByAppend(l + [x], r, f);
    }
  }

  // ---------------------------------------------------------------------
  // Hand valuation
  // ---------------------------------------------------------------------

  function Pips(c: Card): int { PipValue(c.rank) }
  function AceMark(c: Card): int { if c.rank == Ace then 1 else 0 }
  function HardPips(c: Card): int { if c.rank == Ace then 1 else PipValue(c.rank) }

  /** The total with every ace counted as 11. */
  function RawTotal(hand: seq<Card>): int { SumBy(hand, Pips) }

  function AceCount(hand: seq<Card>): int { SumBy(hand, AceMark) }

  /** The total with every ace counted as 1 (the "hard" total). */
  function HardTotal(hand: seq<Card>): int { SumBy(hand, HardPips) }

  /** Every card is worth at least 1, so a hand is worth at least its size. */
  lemma HandValueAtLeastSize(hand: seq<Card>)
    ensures HandValue(hand) >= |hand|
  {
    HardTotalIsAllAcesAsOne(hand);
  }

  /** The total when `j` of the aces count as 1 and the rest as 11. */
  function AcesAsOne(hand: seq<Card>, j: int): int { RawTotal(hand) - 10 * j }

  lemma {:induction false} HardTotalIsAllAcesAsOne(hand: seq<Card>)
    ensures HardTotal(hand) == AcesAsOne(hand, AceCount(hand))
    ensures 0 <= AceCount(hand) <= |hand|
    ensures HardTotal(hand) >= |hand|
    decreases |hand|
  {
    if |hand| > 0 {
      HardTotalIsAllAcesAsOne(hand[..|hand| - 1]);
    }
  }

  /** The demotion loop: while the total exceeds 21 and an ace is still
      counted as 11, count one more ace as 1. */
  function Demote(value: int, aces: nat): (v: int)
    ensures value - 10 * aces <= v <= value
    ensures (value - v) % 10 == 0
    ensures v <= 21 || v == value - 10 * aces
    ensures v == value || v > 11
    decreases aces
  {
    if value > 21 && aces > 0 then Demote(value - 10, aces - 1) else value
  }

  /** The Blackjack value of a hand. */
  function HandValue(hand: seq<Card>): (v: int)
    ensures HardTotal(hand) <= v <= RawTotal(hand)
    ensures (RawTotal(hand) - v) % 10 == 0
    ensures v <= 21 || v == HardTotal(hand)
    ensures v == RawTotal(hand) || v > 11
  {
    HardTotalIsAllAcesAsOne(hand);
    Demote(RawTotal(hand), AceCount(hand))
  }

  /** The value is the best total a player can claim: no way of counting
      aces as 1 or 11 gives a larger total that does not bust, and the value
      busts only when every way of counting busts. */
  lemma HandValueIsBestTotal(hand: seq<Card>, j: int)
    requires 0 <= j <= AceCount(hand)
    ensures AcesAsOne(hand, j) <= 21 ==> AcesAsOne(hand, j) <= HandValue(hand)
    ensures HandValue(hand) > 21 ==> AcesAsOne(hand, j) > 21
  {
    HardTotalIsAllAcesAsOne(hand);
  }

  lemma HardTotalPush(hand: seq<Card>, c: Card)
    ensures HardTotal(hand + [c]) == HardTotal(hand) + HardPips(c)
  {
    SumByPush(hand, c, HardPips);
  }

  /** A hand with an ace and a hard total from 7 to 11 is a soft 17 to 21,
      so a hand with an ace worth less than 17 has a hard total of at most 6
      or at least 12. */
  lemma SoftTotalsSkip(hand: seq<Card>)
    ensures AceCount(hand) > 0 && HandValue(hand) < 17 ==> HardTotal(hand) <= 6 || HardTotal(hand) >= 12
  {
    HardTotalIsAllAcesAsOne(hand);
    if AceCount(hand) > 0 {
      HandValueIsBestTotal(hand, AceCount(hand) - 1);
    }
  }

  /** The shape of a hand built one card at a time while it stays worth less
      than 17: without an ace every card is worth at least 2; with one, the
      hard total either is still at most 6 or jumped past the soft totals,
      which takes a card worth 6 or more. */
  predicate LowShape(hand: seq<Card>) {
    && (AceCount(hand) == 0 ==> HardTotal(hand) >= 2 * |hand|)
    && (AceCount(hand) > 0 ==> HardTotal(hand) <= 6 || HardTotal(hand) >= |hand| + 5)
  }

  /** Adding a card that leaves the hand worth less than 17 keeps the shape. */
  lemma LowShapeGrows(hand: seq<Card>, c: Card)
    requires LowShape(hand) && HandValue(hand + [c]) < 17
    ensures LowShape(hand + [c])
  {
    HardTotalPush(hand, c);
    HandTotalsPush(hand, c);
    HardTotalIsAllAcesAsOne(hand);
    SoftTotalsSkip(hand + [c]);
    assert HardPips(c) >= 1 && (c.rank != Ace ==> HardPips(c) >= 2);
  }

  /** Every two-card hand worth less than 17 has the shape. */
  lemma LowShapeOfPair(hand: seq<Card>)
    requires |hand| == 2 && HandValue(hand) < 17
    ensures LowShape(hand)
  {
    var a, b := hand[0], hand[1];
    HandTotalsPush([], a);
    assert [] + [a] == [a];
    assert LowShape([]);
    LowShapeGrows([], a);
    assert [a] + [b] == hand;
    LowShapeGrows([a], b);
  }

  /** A hand of that shape worth less than 17 has at most 11 cards, as six
      aces, a six and four more aces have. */
  lemma LowShapeIsShort(hand: seq<Card>)
    requires LowShape(hand) && HandValue(hand) < 17
    ensures |hand| <= 11
  {
    HardTotalIsAllAcesAsOne(hand);
  }

  /** Reordering a hand never changes its value. */
  lemma HandValueOrderIndependent(a: seq<Card>, b: seq<Card>)
    requires multiset(a) == multiset(b)
    ensures HandValue(a) == HandValue(b)
  {
    SumByPermutation(a, b, Pips);
    SumByPermutation(a, b, AceMark);
  }

  /** `calculate_value` as the source writes it: one pass that adds up the
      cards with aces as 11, then the demotion loop. */
  method CalculateValue(hand: seq<Card>) returns (value: int)
    ensures value == HandValue(hand)
  {
    value := 0;
    var aces := 0;
    var i := 0;
    while i < |hand|
      invariant 0 <= i <= |hand|
      invariant value == RawTotal(hand[..i])
      invariant aces == AceCount(hand[..i])
    {
      assert hand[..i + 1][..i] == hand[..i];
      var rank := hand[i].rank;
      if rank in {Jack, Queen, King} {
        value := value + 10;
      } else if rank == Ace {
        aces := aces + 1;
        value := value + 11;
      } else {
        value := value + PipValue(rank);
      }
      i := i + 1;
    }
    assert hand[..i] == hand;
    HardTotalIsAllAcesAsOne(hand);
    while value > 21 && aces > 0
      invariant 0 <= aces
      invariant Demote(value, aces) == HandValue(hand)
    {
      value := value - 10;
      aces := aces - 1;
    }
  }

  lemma HandTotalsPush(hand: seq<Card>, c: Card)
    ensures RawTotal(hand + [c]) == RawTotal(hand) + PipValue(c.rank)
    ensures AceCount(hand + [c]) == AceCount(hand) + (if c.rank == Ace then 1 else 0)
  {
    SumByPush(hand, c, Pips);
    SumByPush(hand, c, AceMark);
  }

  /** The totals of a two-card hand. */
  lemma PairTotals(a: Card, b: Card)
    ensures RawTotal([a, b]) == PipValue(a.rank) + PipValue(b.rank)
    ensures AceCount([a, b]) == (if a.rank == Ace then 1 else 0) + (if b.rank == Ace then 1 else 0)
  {
    HandTotalsPush([], a);
    assert [] + [a] == [a];
    HandTotalsPush([a], b);
    assert [a] + [b] == [a, b];
  }

  /** Worked values for a few hands: a soft 17, the same hand made hard by
      an eight, two faces, and two aces with a nine. */
  lemma HandValueExamples()
    ensures HandValue([Card(Ace, Hearts), Card(Six, Clubs)]) == 17
    ensures HandValue([Card(Ace, Hearts), Card(Six, Clubs), Card(Eight, Spades)]) == 15
    ensures HandValue([Card(King, Hearts), Card(Queen, Clubs)]) == 20
    ensures HandValue([Card(Ace, Hearts), Card(Ace, Clubs), Card(Nine, Spades)]) == 21
    ensures HandValue([]) == 0
  {
    var ah, ac, six := Card(Ace, Hearts), Card(Ace, Clubs), Card(Six, Clubs);
    PairTotals(ah, six);
    assert Demote(17, 1) == 17;
    HandTotalsPush([ah, six], Card(Eight, Spades));
    assert [ah, six] + [Card(Eight, Spades)] == [ah, six, Card(Eight, Spades)];
    assert Demote(25, 1) == 15;
    PairTotals(Card(King, Hearts), Card(Queen, Clubs));
    assert Demote(20, 0) == 20;
    PairTotals(ah, ac);
    HandTotalsPush([ah, ac], Card(Nine, Spades));
    assert [ah, ac] + [Card(Nine, Spades)] == [ah, ac, Card(Nine, Spades)];
    assert Demote(31, 2) == 21;
  }

  // ---------------------------------------------------------------------
  // Hi-Lo totals and the fresh shoe
  // ---------------------------------------------------------------------

  function CardHiLo(c: Card): int { HiLo(c.rank) }

  /** The net change of the running count when every card of `cards` is counted. */
  function HiLoTotal(cards: seq<Card>): int { SumBy(cards, CardHiLo) }

  function RankMark(r: Rank): Card -> int { (x: Card) => if x.rank == r then 1 else 0 }
  function CopyMark(c: Card): Card -> int { (x: Card) => if x == c then 1 else 0 }

  /** How many cards of `cards` have rank `r`. */
  function RankCount(cards: seq<Card>, r: Rank): int { SumBy(cards, RankMark(r)) }

  /** How many copies of card `c` the sequence holds. */
  function CopyCount(cards: seq<Card>, c: Card): int { SumBy(cards, CopyMark(c)) }

  /** The cards of suit `s` with the given ranks, in order. */
  function RunOf(ranks: seq<Rank>, s: Suit): (run: seq<Card>)
    ensures |run| == |ranks|
  {
    if |ranks| == 0 then [] else RunOf(ranks[..|ranks| - 1], s) + [Card(ranks[|ranks| - 1], s)]
  }

  /** One suit's thirteen cards in rank order. */
  function SuitRun(s: Suit): seq<Card> { RunOf(Ranks, s) }

  /** One 52-card deck, suit by suit. */
  function OneDeck(): seq<Card> {
    SuitRun(Hearts) + SuitRun(Diamonds) + SuitRun(Clubs) + SuitRun(Spades)
  }

  /** The unshuffled shoe `create_deck(n)` builds: `n` copies of one deck. */
  function FreshDeck(n: nat): seq<Card> {
    if n == 0 then [] else FreshDeck(n - 1) + OneDeck()
  }

  /** What `random.shuffle` may return for `create_deck(n)`: any reordering. */
  ghost predicate IsShuffledShoe(deck: seq<Card>, n: nat) {
    multiset(deck) == multiset(FreshDeck(n))
  }

  lemma {:induction false} RunOfCopies(ranks: seq<Rank>, s: Suit, c: Card)
    ensures CopyCount(RunOf(ranks, s), c) == (if c.suit == s then multiset(ranks)[c.rank] else 0)
    decreases |ranks|
  {
    if |ranks| > 0 {
      var ranks', last := ranks[..|ranks| - 1], ranks[|ranks| - 1];
      assert ranks == ranks' + [last];
      var run', card := RunOf(ranks', s), Card(last, s);
      assert RunOf(ranks, s) == run' + [card];
      assert multiset(ranks)[c.rank] == multiset(ranks')[c.rank] + (if c.rank == last then 1 else 0);
      RunOfCopies(ranks', s, c);
      SumByPush(run', card, CopyMark(c));
      assert CopyMark(c)(card) == (if c.suit == s && c.rank == last then 1 else 0);
    }
  }

  lemma {:induction false} RunOfRanks(ranks: seq<Rank>, s: Suit, r: Rank)
    ensures RankCount(RunOf(ranks, s), r) == multiset(ranks)[r]
    decreases |ranks|
  {
    if |ranks| > 0 {
      var ranks', last := ranks[..|ranks| - 1], ranks[|ranks| - 1];
      assert ranks == ranks' + [last];
      var run', card := RunOf(ranks', s), Card(last, s);
      assert RunOf(ranks, s) == run' + [card];
      assert multiset(ranks)[r] == multiset(ranks')[r] + (if r == last then 1 else 0);
      RunOfRanks(ranks', s, r);
      SumByPush(run', card, RankMark(r));
      assert RankMark(r)(card) == (if r == last then 1 else 0);
    }
  }

  /** The position of a rank in `Ranks`. */
  function RankIndex(r: Rank): nat {
    match r
    case Two => 0 case Three => 1 case Four => 2 case Five => 3 case Six => 4
    case Seven => 5 case Eight => 6 case Nine => 7 case Ten => 8
    case Jack => 9 case Queen => 10 case King => 11 case Ace => 12
  }

  /** A rank list whose i-th entry sits at position i holds each rank of a
      position below its length exactly once. */
  lemma {:induction false} IndexedRanksOnce(ranks: seq<Rank>, q: Rank)
    requires forall i :: 0 <= i < |ranks| ==> RankIndex(ranks[i]) == i
    ensures multiset(ranks)[q] == (if RankIndex(q) < |ranks| then 1 else 0)
    decreases |ranks|
  {
    if |ranks| > 0 {
      var init, last := ranks[..|ranks| - 1], ranks[|ranks| - 1];
      assert ranks == init + [last];
      assert forall i :: 0 <= i < |init| ==> RankIndex(init[i]) == i by {
        forall i | 0 <= i < |init| ensures RankIndex(init[i]) == i {
          assert init[i] == ranks[i];
        }
      }
      IndexedRanksOnce(init, q);
      assert multiset(ranks) == multiset(init) + multiset{last};
      assert RankIndex(last) == |init|;
      if q != last {
        RankIndexInjective(q, last);
      }
    }
  }

  lemma RankIndexInjective(a: Rank, b: Rank)
    requires a != b
    ensures RankIndex(a) != RankIndex(b)
  {
    assert RankAt(RankIndex(a)) == a && RankAt(RankIndex(b)) == b;
  }

  /** The rank at a position of `Ranks`, the inverse of `RankIndex`. */
  function RankAt(i: nat): Rank {
    if i < 13 then Ranks[i] else Ace
  }

  /** Every rank occurs once in the rank list. */
  lemma RanksOnce(q: Rank)
    ensures multiset(Ranks)[q] == 1
  {
    assert forall i :: 0 <= i < |Ranks| ==> RankIndex(Ranks[i]) == i;
    IndexedRanksOnce(Ranks, q);
  }

  lemma SuitRunCounts(s: Suit, c: Card, r: Rank)
    ensures |SuitRun(s)| == 13
    ensures CopyCount(SuitRun(s), c) == (if c.suit == s then 1 else 0)
    ensures RankCount(SuitRun(s), r) == 1
  {
    RunOfCopies(Ranks, s, c);
    RunOfRanks(Ranks, s, r);
    RanksOnce(c.rank);
    RanksOnce(r);
  }

  /** How many cards of `cards` are low (two to six). */
  function LowCount(cards: seq<Card>): int {
    RankCount(cards, Two) + RankCount(cards, Three) + RankCount(cards, Four)
    + RankCount(cards, Five) + RankCount(cards, Six)
  }

  /** How many cards of `cards` are high (ten to ace). */
  function HighCount(cards: seq<Card>): int {
    RankCount(cards, Ten) + RankCount(cards, Jack) + RankCount(cards, Queen)
    + RankCount(cards, King) + RankCount(cards, Ace)
  }

  lemma LowCountPush(rest: seq<Card>, top: Card)
    ensures LowCount(rest + [top]) == LowCount(rest) + (if HiLo(top.rank) == 1 then 1 else 0)
  {
    SumByPush(rest, top, RankMark(Two));
    SumByPush(rest, top, RankMark(Three));
    SumByPush(rest, top, RankMark(Four));
    SumByPush(rest, top, RankMark(Five));
    SumByPush(rest, top, RankMark(Six));
  }

  lemma HighCountPush(rest: seq<Card>, top: Card)
    ensures HighCount(rest + [top]) == HighCount(rest) + (if HiLo(top.rank) == -1 then 1 else 0)
  {
    SumByPush(rest, top, RankMark(Ten));
    SumByPush(rest, top, RankMark(Jack));
    SumByPush(rest, top, RankMark(Queen));
    SumByPush(rest, top, RankMark(King));
    SumByPush(rest, top, RankMark(Ace));
  }

  /** The Hi-Lo total of any sequence of cards, from its rank counts. */
  lemma {:induction false} HiLoTotalByRanks(cards: seq<Card>)
    ensures HiLoTotal(cards) == LowCount(cards) - HighCount(cards)
    decreases |cards|
  {
    if |cards| > 0 {
      var rest, top := cards[..|cards| - 1], cards[|cards| - 1];
      assert cards == rest + [top];
      HiLoTotalByRanks(rest);
      SumByPush(rest, top, CardHiLo);
      LowCountPush(rest, top);
      HighCountPush(rest, top);
    }
  }

  /** A sequence holding every rank equally often has a Hi-Lo total of 0. */
  lemma BalancedHiLo(cards: seq<Card>, k: int)
    requires forall r: Rank :: RankCount(cards, r) == k
    ensures HiLoTotal(cards) == 0
  {
    HiLoTotalByRanks(cards);
  }

  lemma OneDeckCounts(c: Card, r: Rank)
    ensures |OneDeck()| == 52
    ensures CopyCount(OneDeck(), c) == 1
    ensures RankCount(OneDeck(), r) == 4
  {
    var f, g := CopyMark(c), RankMark(r);
    var h, d, cl, sp := SuitRun(Hearts), SuitRun(Diamonds), SuitRun(Clubs), SuitRun(Spades);
    SuitRunCounts(Hearts, c, r);
    SuitRunCounts(Diamonds, c, r);
    SuitRunCounts(Clubs, c, r);
    SuitRunCounts(Spades, c, r);
    SumByAppend(h, d, f);
    SumByAppend(h + d, cl, f);
    SumByAppend(h + d + cl, sp, f);
    SumByAppend(h, d, g);
    SumByAppend(h + d, cl, g);
    SumByAppend(h + d + cl, sp, g);
  }

  /** `create_deck(n)` holds 52n cards: every card exactly n times, so every
      rank 4n times, and its Hi-Lo weights cancel out. */
  lemma {:induction false} FreshDeckCounts(n: nat, c: Card, r: Rank)
    ensures |FreshDeck(n)| == 52 * n
    ensures CopyCount(FreshDeck(n), c) == n
    ensures RankCount(FreshDeck(n), r) == 4 * n
  {
    OneDeckCounts(c, r);
    if n > 0 {
      FreshDeckCounts(n - 1, c, r);
      SumByAppend(FreshDeck(n - 1), OneDeck(), CopyMark(c));
      SumByAppend(FreshDeck(n - 1), OneDeck(), RankMark(r));
    }
  }

  /** Shuffling keeps all of those counts. */
  lemma ShuffledShoeCounts(deck: seq<Card>, n: nat, c: Card, r: Rank)
    requires IsShuffledShoe(deck, n)
    ensures |deck| == 52 * n
    ensures CopyCount(deck, c) == n
    ensures RankCount(deck, r) == 4 * n
    ensures HiLoTotal(deck) == 0
  {
    FreshDeckCounts(n, c, r);
    assert |deck| == |multiset(deck)| == |multiset(FreshDeck(n))| == |FreshDeck(n)|;
    SumByPermutation(deck, FreshDeck(n), CopyMark(c));
    forall q: Rank ensures RankCount(deck, q) == 4 * n {
      FreshDeckCounts(n, c, q);
      SumByPermutation(deck, FreshDeck(n), RankMark(q));
    }
    BalancedHiLo(deck, 4 * n);
  }
}

=== FILE: dealing.dfy ===
/** Dealing from the shoe and keeping the Hi-Lo running count.

The shoe is a sequence whose LAST element is the top card: `deal_card`
pops from the end of a Python list.
 */
module Dealing {
  import opened Cards
  import opened Outcomes

  /** The card-side state of a game: the shoe and the running count. */
  datatype Table = Table(deck: seq<Card>, runningCount: int)

  /** `update_count`: the running count after one more card is seen. */
  function UpdateCount(count: int, c: Card): (r: int)
    ensures c.rank in {Two, Three, Four, Five, Six} ==> r == count + 1
    ensures c.rank in {Ten, Jack, Queen, King, Ace} ==> r == count - 1
    ensures c.rank in {Seven, Eight, Nine} ==> r == count
  {
    count + HiLo(c.rank)
  }

  datatype Dealt = Dealt(card: Card, table: Table)

  /** `deal_card(update_count)`: take the top card, and count it only when asked to. */
  function Deal(t: Table, counted: bool): (r: Result<Dealt>)
    ensures r.Failure? <==> |t.deck| == 0
    ensures r.Failure? ==> r.fault == DeckExhausted
    ensures r.Success? ==> r.value.table.deck + [r.value.card] == t.deck
    ensures r.Success? && counted ==> r.value.table.runningCount == UpdateCount(t.runningCount, r.value.card)
    ensures r.Success? && !counted ==> r.value.table.runningCount == t.runningCount
    ensures r.Success? && counted ==> DealtFrom(t, r.value)
  {
    if |t.deck| == 0 then Failure(DeckExhausted)
    else
      var top := t.deck[|t.deck| - 1];
      var count := if counted then UpdateCount(t.runningCount, top) else t.runningCount;
      Success(Dealt(top, Table(t.deck[..|t.deck| - 1], count)))
  }

  /** `d` is the top card of `t`, dealt and counted. */
  predicate DealtFrom(t: Table, d: Dealt) {
    && |t.deck| > 0
    && d.card == t.deck[|t.deck| - 1]
    && d.table == Table(t.deck[..|t.deck| - 1], UpdateCount(t.runningCount, d.card))
  }

  /** `t1` is `t0` after some cards were dealt off the top, each counted exactly once. */
  predicate CountedDraw(t0: Table, t1: Table) {
    && |t1.deck| <= |t0.deck|
    && t1.deck == t0.deck[..|t1.deck|]
    && t1.runningCount == t0.runningCount + HiLoTotal(t0.deck[|t1.deck|..])
  }

  lemma CountedDrawRefl(t: Table)
    ensures CountedDraw(t, t)
  {
    assert t.deck[..|t.deck|] == t.deck;
    assert t.deck[|t.deck|..] == [];
  }

  /** A counted deal is a counted draw of one card. */
  lemma DealIsCountedDraw(t: Table, d: Dealt)
    requires DealtFrom(t, d)
    ensures CountedDraw(t, d.table)
  {
    assert t.deck[|d.table.deck|..] == [] + [d.card];
    SumByPush([], d.card, CardHiLo);
  }

  lemma CountedDrawTrans(t0: Table, t1: Table, t2: Table)
    requires CountedDraw(t0, t1) && CountedDraw(t1, t2)
    ensures CountedDraw(t0, t2)
  {
    var a, b := |t2.deck|, |t1.deck|;
    assert t0.deck[a..] == t0.deck[a..b] + t0.deck[b..];
    assert t1.deck[a..] == t0.deck[a..b];
    SumByAppend(t0.deck[a..b], t0.deck[b..], CardHiLo);
  }

  // ---------------------------------------------------------------------
  // The opening deal
  // ---------------------------------------------------------------------

  /** The four opening cards, in dealing order from the top of `deck`:
      player, dealer up-card, player, dealer hole card. */
  function PlayerOpening(deck: seq<Card>): seq<Card>
    requires |deck| >= 4
  {
    [deck[|deck| - 1], deck[|deck| - 3]]
  }

  function UpCard(deck: seq<Card>): Card
    requires |deck| >= 4
  {
    deck[|deck| - 2]
  }

  function HoleCard(deck: seq<Card>): Card
    requires |deck| >= 4
  {
    deck[|deck| - 4]
  }

  /** The player holds 21 with the two opening cards. */
  predicate IsNatural(deck: seq<Card>)
    requires |deck| >= 4
  {
    HandValue(PlayerOpening(deck)) == 21
  }

  datatype Opening = Opening(player: seq<Card>, dealer: seq<Card>, table: Table)

  /** `o` is the opening dealt from `t`: the player's two cards, the dealer's
      up-card and hole card, the shoe without the top four, and every one of
      them counted except the hole card. */
  predicate OpenedFrom(t: Table, o: Opening) {
    && |t.deck| >= 4
    && o.player == PlayerOpening(t.deck)
    && o.dealer == [UpCard(t.deck), HoleCard(t.deck)]
    && o.table.deck == t.deck[..|t.deck| - 4]
    && o.table.runningCount + HiLo(HoleCard(t.deck).rank) == t.runningCount + HiLoTotal(t.deck[|t.deck| - 4..])
  }

  /** Two cards to the player and an up-card to the dealer, all counted, then
      the dealer's hole card, not counted. */
  function DealOpening(t: Table): (r: Result<Opening>)
    ensures r.Failure? <==> |t.deck| < 4
    ensures r.Failure? ==> r.fault == DeckExhausted
    ensures r.Success? ==> OpenedFrom(t, r.value)
  {
    var p1 :- Deal(t, true);
    var d1 :- Deal(p1.table, true);
    var p2 :- Deal(d1.table, true);
    var d2 :- Deal(p2.table, false);
    OpeningCount(t.deck);
    Success(Opening([p1.card, p2.card], [d1.card, d2.card], d2.table))
  }

  lemma OpeningCount(deck: seq<Card>)
    requires |deck| >= 4
    ensures HiLoTotal(deck[|deck| - 4..])
              == HiLo(deck[|deck| - 4].rank) + HiLo(deck[|deck| - 3].rank)
               + HiLo(deck[|deck| - 2].rank) + HiLo(deck[|deck| - 1].rank)
  {
    var n := |deck|;
    var a, b, c, d := deck[n - 4], deck[n - 3], deck[n - 2], deck[n - 1];
    assert deck[n - 4..] == [] + [a] + [b] + [c] + [d];
    SumByPush([], a, CardHiLo);
    SumByPush([] + [a], b, CardHiLo);
    SumByPush([] + [a] + [b], c, CardHiLo);
    SumByPush([] + [a] + [b] + [c], d, CardHiLo);
  }

  /** The table the player's turn starts from: the shoe without the four
      opening cards, and the count moved by the three visible ones. */
  function OpeningTable(t: Table): Table
    requires |t.deck| >= 4
  {
    Table(t.deck[..|t.deck| - 4],
          t.runningCount + HiLo(t.deck[|t.deck| - 1].rank) + HiLo(UpCard(t.deck).rank)
                         + HiLo(t.deck[|t.deck| - 3].rank))
  }

  /** The opening deal leaves the table `OpeningTable` describes: the count
      moved by the three visible cards only. */
  lemma OpenedCount(t: Table, o: Opening)
    requires OpenedFrom(t, o)
    ensures o.table == OpeningTable(t)
  {
    OpeningCount(t.deck);
  }

  /** Counting from the opening deal through any later counted draws: every
      card taken from the shoe is counted once, except the hole card. */
  lemma OpeningThenDraws(t: Table, o: Opening, t2: Table)
    requires OpenedFrom(t, o)
    requires CountedDraw(o.table, t2)
    ensures |t2.deck| + 4 <= |t.deck|
    ensures t2.deck == t.deck[..|t2.deck|]
    ensures t2.runningCount + HiLo(HoleCard(t.deck).rank) == t.runningCount + HiLoTotal(t.deck[|t2.deck|..])
  {
    var n, a := |t.deck|, |t2.deck|;
    assert t.deck[a..] == t.deck[a..n - 4] + t.deck[n - 4..];
    assert o.table.deck[a..] == t.deck[a..n - 4];
    SumByAppend(t.deck[a..n - 4], t.deck[n - 4..], CardHiLo);
  }

  // ---------------------------------------------------------------------
  // The dealer's turn
  // ---------------------------------------------------------------------

  /** The top `k` cards of `deck`, in the order they are dealt. */
  function TopCards(deck: seq<Card>, k: nat): (cards: seq<Card>)
    requires k <= |deck|
    ensures |cards| == k
    ensures forall i :: 0 <= i < k ==> cards[i] == deck[|deck| - 1 - i]
  {
    if k == 0 then [] else [deck[|deck| - 1]] + TopCards(deck[..|deck| - 1], k - 1)
  }

  /** Dealing `k` cards is dealing the top one and then `k - 1` from the rest. */
  lemma TopCardsPop(deck: seq<Card>, k: nat)
    requires 0 < k <= |deck|
    ensures TopCards(deck, k) == [deck[|deck| - 1]] + TopCards(deck[..|deck| - 1], k - 1)
  {
  }

  datatype DealerDone = DealerDone(hand: seq<Card>, table: Table)

  /** The dealer's turn from `t` with `hand` ended in `done`: the cards drawn
      are the top of the shoe, each counted, the final hand is worth at
      least 17, and every hand before it (from `hand` on) was worth less. */
  predicate DealerDrew(t: Table, hand: seq<Card>, done: DealerDone) {
    && CountedDraw(t, done.table)
    && done.hand == hand + TopCards(t.deck, |t.deck| - |done.table.deck|)
    && HandValue(done.hand) >= 17
    && forall k :: |hand| <= k < |done.hand| ==> HandValue(done.hand[..k]) < 17
  }

  /** Even the whole shoe leaves the dealer's hand below 17: every hand
      reached by drawing the top `k` cards, `k` from 0 to all of them, is
      worth less than 17. */
  predicate DealerShort(deck: seq<Card>, hand: seq<Card>) {
    forall k :: 0 <= k <= |deck| ==> HandValue(hand + TopCards(deck, k)) < 17
  }

  /** The dealer draws, counting each card, while the hand is worth less
      than 17; the shoe runs out exactly when it cannot bring the hand to 17. */
  function DealerTurn(t: Table, hand: seq<Card>): (r: Result<DealerDone>)
    ensures r.Failure? ==> r.fault == DeckExhausted
    ensures r.Failure? <==> DealerShort(t.deck, hand)
    ensures r.Success? ==> DealerDrew(t, hand, r.value)
    decreases |t.deck|
  {
    if HandValue(hand) >= 17 then
      DealerStands(t, hand);
      assert hand + TopCards(t.deck, 0) == hand;
      Success(DealerDone(hand, t))
    else if |t.deck| == 0 then
      assert hand + TopCards(t.deck, 0) == hand;
      Failure(DeckExhausted)
    else
      var d := Deal(t, true).value;
      DealerShortStep(t.deck, hand);
      var rest := DealerTurn(d.table, hand + [d.card]);
      if rest.Failure? then rest
      else
        DealerStep(t, hand, d, rest.value);
        rest
  }

  /** The shoe is too short for the dealer exactly when the hand is below 17
      and the shoe without its top card is too short for the hand with it. */
  lemma DealerShortStep(deck: seq<Card>, hand: seq<Card>)
    requires |deck| > 0
    ensures DealerShort(deck, hand) <==> HandValue(hand) < 17 && DealerShort(deck[..|deck| - 1], hand + [deck[|deck| - 1]])
  {
    var card, rest := deck[|deck| - 1], deck[..|deck| - 1];
    assert hand + TopCards(deck, 0) == hand;
    forall k | 0 < k <= |deck|
      ensures hand + TopCards(deck, k) == hand + [card] + TopCards(rest, k - 1)
    {
      DealerStepHand(deck, hand, card, rest, k);
    }
    if DealerShort(deck, hand) {
      forall k | 0 <= k <= |rest|
        ensures HandValue(hand + [card] + TopCards(rest, k)) < 17
      {
        assert hand + TopCards(deck, k + 1) == hand + [card] + TopCards(rest, k);
      }
    }
  }

  /** A dealer whose hand below 17 has the shape `LowShape` describes holds
      at most 11 cards, so 12 cards in hand and shoe together always bring
      the hand to 17. */
  lemma {:induction false} DealerTurnFromLowHand(t: Table, hand: seq<Card>)
    requires HandValue(hand) < 17 ==> LowShape(hand)
    requires |hand| + |t.deck| >= 12
    ensures DealerTurn(t, hand).Success?
    decreases |t.deck|
  {
    if HandValue(hand) < 17 {
      LowShapeIsShort(hand);
      var d := Deal(t, true).value;
      if HandValue(hand + [d.card]) < 17 {
        LowShapeGrows(hand, d.card);
      }
      DealerTurnFromLowHand(d.table, hand + [d.card]);
    }
  }

  /** A dealer dealt two cards reaches 17 whenever the shoe holds 10 more:
      the longest hand that stays below 17 on every card has 11 cards. */
  lemma DealerTurnSucceeds(t: Table, hand: seq<Card>)
    requires |hand| == 2 && |t.deck| >= 10
    ensures DealerTurn(t, hand).Success?
  {
    if HandValue(hand) < 17 {
      LowShapeOfPair(hand);
    }
    DealerTurnFromLowHand(t, hand);
  }

  /** Drawing fewer than `n` of the top cards onto `hand` leaves it worth
      less than 17. */
  predicate BelowSeventeen(deck: seq<Card>, hand: seq<Card>, n: nat)
    requires n <= |deck|
  {
    forall j :: 0 <= j < n ==> HandValue(hand + TopCards(deck, j)) < 17
  }

  /** A finished dealer's turn stopped at the first hand worth 17: every
      hand with fewer of the drawn cards was worth less. */
  lemma DealerDrewStops(t: Table, hand: seq<Card>, done: DealerDone)
    requires DealerDrew(t, hand, done)
    ensures BelowSeventeen(t.deck, hand, |t.deck| - |done.table.deck|)
  {
    var n := |t.deck| - |done.table.deck|;
    forall j | 0 <= j < n
      ensures HandValue(hand + TopCards(t.deck, j)) < 17
    {
      assert done.hand[..|hand| + j] == hand + TopCards(t.deck, j);
    }
  }

  /** A dealer's hand worth 17 or more draws nothing. */
  lemma DealerStands(t: Table, hand: seq<Card>)
    requires HandValue(hand) >= 17
    ensures DealerDrew(t, hand, DealerDone(hand, t))
  {
    CountedDrawRefl(t);
    assert hand + [] == hand;
  }

  /** One draw of the dealer followed by the rest of the dealer's turn. */
  lemma DealerStep(t: Table, hand: seq<Card>, d: Dealt, done: DealerDone)
    requires HandValue(hand) < 17
    requires DealtFrom(t, d)
    requires DealerDrew(d.table, hand + [d.card], done)
    ensures DealerDrew(t, hand, done)
  {
    DealIsCountedDraw(t, d);
    CountedDrawTrans(t, d.table, done.table);
    DealerStepHand(t.deck, hand, d.card, d.table.deck, |t.deck| - |done.table.deck|);
    assert done.hand[..|hand|] == hand;
  }

  lemma DealerStepHand(deck: seq<Card>, hand: seq<Card>, card: Card, rest: seq<Card>, k: nat)
    requires 0 < k <= |deck| && card == deck[|deck| - 1] && rest == deck[..|deck| - 1]
    ensures hand + [card] + TopCards(rest, k - 1) == hand + TopCards(deck, k)
  {
    TopCardsPop(deck, k);
  }
}

=== FILE: engine.dfy ===
/** The parts of `BlackjackGame` both engines share: the game record,
settlement, the end-of-round bookkeeping, the game-loop guard and `reset`.

The record is generic in the transition type, because the two engines
record transitions over different state tuples.
 */
module Engine {
  import opened Cards
  import opened Dealing

  datatype Action = Hit | Stand

  /** A `BlackjackGame` between calls: money is exact (a natural pays one and
      a half times the bet). */
  datatype Game<Tr> = Game(
    startMoney: real,
    money: real,
    numDecks: nat,
    table: Table,
    moneyHistory: seq<real>,
    history: seq<Tr>)

  /** The money history always ends with the current money. */
  predicate LedgerAgrees<Tr>(g: Game<Tr>) {
    |g.moneyHistory| > 0 && g.moneyHistory[|g.moneyHistory| - 1] == g.money
  }

  /** The constructor, given the order `random.shuffle` left the shoe in. */
  function NewGame<Tr>(startMoney: real, numDecks: nat, shuffled: seq<Card>): (g: Game<Tr>)
    requires IsShuffledShoe(shuffled, numDecks)
    ensures g.startMoney == startMoney && g.numDecks == numDecks && g.table.deck == shuffled
    ensures g.money == startMoney && g.moneyHistory == [startMoney] && g.history == []
    ensures g.table.runningCount == 0
    ensures |g.table.deck| == 52 * numDecks && HiLoTotal(g.table.deck) == 0
    ensures forall r: Rank :: RankCount(g.table.deck, r) == 4 * numDecks
    ensures LedgerAgrees(g)
  {
    FreshShoe(shuffled, numDecks);
    Game(startMoney, startMoney, numDecks, Table(shuffled, 0), [startMoney], [])
  }

  /** `reset`: a new shuffled shoe, the starting money back, both histories
      restarted, and the running count left as it was. */
  function Reset<Tr>(g: Game<Tr>, shuffled: seq<Card>): (g': Game<Tr>)
    requires IsShuffledShoe(shuffled, g.numDecks)
    ensures g'.money == g.startMoney && g'.moneyHistory == [g.startMoney] && g'.history == []
    ensures g'.startMoney == g.startMoney && g'.numDecks == g.numDecks
    ensures g'.table.runningCount == g.table.runningCount
    ensures |g'.table.deck| == 52 * g.numDecks && HiLoTotal(g'.table.deck) == 0
    ensures forall r: Rank :: RankCount(g'.table.deck, r) == 4 * g.numDecks
    ensures LedgerAgrees(g')
  {
    FreshShoe(shuffled, g.numDecks);
    g.(money := g.startMoney,
       table := Table(shuffled, g.table.runningCount),
       moneyHistory := [g.startMoney],
       history := [])
  }

  lemma FreshShoe(shuffled: seq<Card>, n: nat)
    requires IsShuffledShoe(shuffled, n)
    ensures |shuffled| == 52 * n && HiLoTotal(shuffled) == 0
    ensures forall r: Rank :: RankCount(shuffled, r) == 4 * n
  {
    forall r: Rank ensures RankCount(shuffled, r) == 4 * n {
      ShuffledShoeCounts(shuffled, n, Card(r, Hearts), r);
    }
    ShuffledShoeCounts(shuffled, n, Card(Two, Hearts), Two);
  }

  // ---------------------------------------------------------------------
  // The totals a turn records
  // ---------------------------------------------------------------------

  /** What a recorded transition shows of the hands and the count: its
      action, and the two totals and the running count of its next state. */
  datatype Shown = Shown(action: Action, playerTotal: int, dealerTotal: int, count: int)

  function Last<T>(s: seq<T>): T
    requires |s| > 0
  {
    s[|s| - 1]
  }

  /** The totals each transition of `trs` shows, in order, read off by `view`. */
  function ShownBy<Tr>(trs: seq<Tr>, view: Tr -> Shown): (shown: seq<Shown>)
    ensures |shown| == |trs|
    ensures forall i :: 0 <= i < |trs| ==> shown[i] == view(trs[i])
  {
    seq(|trs|, i requires 0 <= i < |trs| => view(trs[i]))
  }

  lemma ShownByPrepend<Tr>(tr: Tr, rest: seq<Tr>, view: Tr -> Shown)
    ensures ShownBy([tr] + rest, view) == [view(tr)] + ShownBy(rest, view)
  {
    var trs := [tr] + rest;
    var l, r := ShownBy(trs, view), [view(tr)] + ShownBy(rest, view);
    forall i | 0 <= i < |trs|
      ensures l[i] == r[i]
    {
      if i > 0 {
        assert trs[i] == rest[i - 1];
      }
    }
    assert l == r;
  }

  /** The totals a player's turn records, entered with the shoe `deck` and
      the hands `hand` and `dealer`, and leaving the shoe `left`: the `i`-th
      hit shows the player's total with the top `i + 1` cards added; a bust
      shows the dealer's two cards and leaves the shoe less one card per hit;
      a stand shows the player's total with the cards of all hits, and the
      dealer's total with the cards the dealer then drew, every shorter draw
      having left the dealer below 17. */
  predicate TotalsFromShoe(deck: seq<Card>, hand: seq<Card>, dealer: seq<Card>, left: seq<Card>, shown: seq<Shown>) {
    && 1 <= |shown| <= |deck| + 1
    && HitTotals(deck, hand, shown)
    && EndTotals(deck, hand, dealer, left, shown)
  }

  predicate HitTotals(deck: seq<Card>, hand: seq<Card>, shown: seq<Shown>) {
    forall i :: 0 <= i < |shown| && shown[i].action == Hit ==>
      i + 1 <= |deck| && shown[i].playerTotal == HandValue(hand + TopCards(deck, i + 1))
  }

  predicate EndTotals(deck: seq<Card>, hand: seq<Card>, dealer: seq<Card>, left: seq<Card>, shown: seq<Shown>)
    requires 1 <= |shown| <= |deck| + 1
  {
    && (Last(shown).action == Hit ==> Last(shown).dealerTotal == HandValue(dealer) && |left| == |deck| - |shown|)
    && (Last(shown).action == Stand ==> StandEnd(deck, hand, dealer, left, |shown| - 1, Last(shown)))
  }

  /** A stand after `k` hits: the player's total with the top `k` cards, and
      the dealer's total with the cards drawn from the rest of the shoe down
      to `left`, every shorter draw having left the dealer below 17. */
  predicate StandEnd(deck: seq<Card>, hand: seq<Card>, dealer: seq<Card>, left: seq<Card>, k: nat, last: Shown)
    requires k <= |deck|
  {
    var m := |deck| - k;
    && |left| <= m
    && last.playerTotal == HandValue(hand + TopCards(deck, k))
    && last.dealerTotal == HandValue(dealer + TopCards(deck[..m], m - |left|))
    && BelowSeventeen(deck[..m], dealer, m - |left|)
  }

  /** A turn that ends with the first card busting the player. */
  lemma BustTotals(deck: seq<Card>, hand: seq<Card>, dealer: seq<Card>, left: seq<Card>, s: Shown)
    requires |deck| > 0 && s.action == Hit && |left| == |deck| - 1
    requires s.playerTotal == HandValue(hand + [deck[|deck| - 1]]) && s.dealerTotal == HandValue(dealer)
    ensures TotalsFromShoe(deck, hand, dealer, left, [s])
  {
    TopCardsPop(deck, 1);
    assert hand + TopCards(deck, 1) == hand + [deck[|deck| - 1]];
  }

  /** A turn that stands at once and lets the dealer draw down to `left`. */
  lemma StandTotals(deck: seq<Card>, hand: seq<Card>, dealer: seq<Card>, left: seq<Card>, s: Shown)
    requires |left| <= |deck| && s.action == Stand
    requires s.playerTotal == HandValue(hand)
    requires s.dealerTotal == HandValue(dealer + TopCards(deck, |deck| - |left|))
    requires BelowSeventeen(deck, dealer, |deck| - |left|)
    ensures TotalsFromShoe(deck, hand, dealer, left, [s])
  {
    var shown := [s];
    assert Last(shown) == s;
    assert HitTotals(deck, hand, shown);
    assert TopCards(deck, 0) == [] && hand + [] == hand;
    assert deck[..|deck|] == deck;
    assert StandEnd(deck, hand, dealer, left, 0, s);
    assert EndTotals(deck, hand, dealer, left, shown);
  }

  /** Drawing `k` cards onto `hand` is drawing the top one and then `k - 1`. */
  lemma HandAfterDraws(deck: seq<Card>, hand: seq<Card>, k: nat)
    requires 0 < k <= |deck|
    ensures hand + TopCards(deck, k) == (hand + [deck[|deck| - 1]]) + TopCards(deck[..|deck| - 1], k - 1)
  {
    TopCardsPop(deck, k);
  }

  /** A hit that does not end the turn, followed by the rest of the turn. */
  lemma TotalsPrepend(deck: seq<Card>, hand: seq<Card>, dealer: seq<Card>, left: seq<Card>,
                      s: Shown, rest: seq<Shown>, shown: seq<Shown>)
    requires |deck| > 0 && s.action == Hit
    requires s.playerTotal == HandValue(hand + [deck[|deck| - 1]])
    requires TotalsFromShoe(deck[..|deck| - 1], hand + [deck[|deck| - 1]], dealer, left, rest)
    requires shown == [s] + rest
    ensures TotalsFromShoe(deck, hand, dealer, left, shown)
  {
    HitTotalsPrepend(deck, hand, s, rest, shown);
    EndTotalsPrepend(deck, hand, dealer, left, s, rest, shown);
  }

  lemma HitTotalsPrepend(deck: seq<Card>, hand: seq<Card>, s: Shown, rest: seq<Shown>, shown: seq<Shown>)
    requires |deck| > 0 && s.action == Hit
    requires s.playerTotal == HandValue(hand + [deck[|deck| - 1]])
    requires HitTotals(deck[..|deck| - 1], hand + [deck[|deck| - 1]], rest)
    requires shown == [s] + rest
    ensures HitTotals(deck, hand, shown)
  {
    var card, deck1 := deck[|deck| - 1], deck[..|deck| - 1];
    assert forall j :: 0 <= j < |rest| ==> shown[j + 1] == rest[j];
    forall i | 0 <= i < |shown| && shown[i].action == Hit
      ensures i + 1 <= |deck| && shown[i].playerTotal == HandValue(hand + TopCards(deck, i + 1))
    {
      if i == 0 {
        HandAfterDraws(deck, hand, 1);
        assert (hand + [card]) + TopCards(deck1, 0) == hand + [card];
      } else {
        HitShift(deck, hand, rest, shown, i);
      }
    }
  }

  lemma EndTotalsPrepend(deck: seq<Card>, hand: seq<Card>, dealer: seq<Card>, left: seq<Card>,
                         s: Shown, rest: seq<Shown>, shown: seq<Shown>)
    requires |deck| > 0 && 1 <= |rest| <= |deck|
    requires EndTotals(deck[..|deck| - 1], hand + [deck[|deck| - 1]], dealer, left, rest)
    requires shown == [s] + rest
    ensures EndTotals(deck, hand, dealer, left, shown)
  {
    var deck1, last := deck[..|deck| - 1], Last(rest);
    assert Last(shown) == last;
    if last.action == Stand {
      var m := |deck| - |rest|;
      StandShift(deck, hand, |rest|, last.playerTotal);
      assert deck1[..m] == deck[..m];
      assert StandEnd(deck, hand, dealer, left, |shown| - 1, last);
    } else {
      assert |left| == |deck1| - |rest| == |deck| - |shown|;
    }
  }

  /** The player's total at a stand, read off the rest of the turn. */
  lemma StandShift(deck: seq<Card>, hand: seq<Card>, k: nat, total: int)
    requires 0 < k <= |deck|
    requires total == HandValue(hand + [deck[|deck| - 1]] + TopCards(deck[..|deck| - 1], k - 1))
    ensures total == HandValue(hand + TopCards(deck, k))
  {
    HandAfterDraws(deck, hand, k);
  }

  /** The player's total after the later hits of a turn, read off the rest
      of the turn. */
  lemma HitShift(deck: seq<Card>, hand: seq<Card>, rest: seq<Shown>, shown: seq<Shown>, i: nat)
    requires |deck| > 0 && |rest| + 1 == |shown| && 0 < i < |shown| && shown[i].action == Hit
    requires forall j :: 0 <= j < |rest| ==> shown[j + 1] == rest[j]
    requires forall j :: 0 <= j < |rest| && rest[j].action == Hit ==>
               j + 1 <= |deck| - 1
               && rest[j].playerTotal == HandValue(hand + [deck[|deck| - 1]] + TopCards(deck[..|deck| - 1], j + 1))
    ensures i + 1 <= |deck| && shown[i].playerTotal == HandValue(hand + TopCards(deck, i + 1))
  {
    assert shown[(i - 1) + 1] == rest[i - 1];
    HandAfterDraws(deck, hand, i + 1);
  }

  /** The running count each hit of a turn records, for a turn entered with
      the table `t`: the `i`-th hit shows the count once the top `i + 1`
      cards of the shoe were counted. */
  predicate HitCounts(t: Table, shown: seq<Shown>) {
    forall i :: 0 <= i < |shown| && shown[i].action == Hit ==>
      i + 1 <= |t.deck| && shown[i].count == t.runningCount + HiLoTotal(t.deck[|t.deck| - (i + 1)..])
  }

  /** A counted hit that shows the new count, followed by the rest of the turn. */
  lemma HitCountsPrepend(t: Table, d: Dealt, s: Shown, rest: seq<Shown>, shown: seq<Shown>)
    requires DealtFrom(t, d) && s.count == d.table.runningCount
    requires HitCounts(d.table, rest)
    requires shown == [s] + rest
    ensures HitCounts(t, shown)
  {
    forall i | 0 <= i < |shown| && shown[i].action == Hit
      ensures i + 1 <= |t.deck| && shown[i].count == t.runningCount + HiLoTotal(t.deck[|t.deck| - (i + 1)..])
    {
      if i > 0 {
        assert shown[i] == rest[i - 1];
      }
      CountAfterTop(t, d, i);
    }
  }

  /** Counting the top `i` cards after a counted deal is counting the top
      `i + 1` cards before it. */
  lemma CountAfterTop(t: Table, d: Dealt, i: nat)
    requires DealtFrom(t, d) && i < |t.deck|
    ensures d.table.runningCount + HiLoTotal(d.table.deck[|d.table.deck| - i..])
              == t.runningCount + HiLoTotal(t.deck[|t.deck| - (i + 1)..])
  {
    var n := |t.deck|;
    assert t.deck[n - (i + 1)..] == d.table.deck[n - 1 - i..] + [d.card];
    SumByPush(d.table.deck[n - 1 - i..], d.card, CardHiLo);
  }

  /** The guard of `play_game`: money left and more than half a deck in the shoe. */
  predicate KeepPlaying<Tr>(g: Game<Tr>) {
    g.money > 0.0 && |g.table.deck| > 26
  }

  /** Settlement after the dealer's turn: the player wins the bet when the
      dealer busts or the player is higher, loses it when the dealer is
      higher, and a tie is a push. */
  function Settle(playerValue: int, dealerValue: int, bet: real): (reward: real)
    ensures dealerValue > 21 || playerValue > dealerValue ==> reward == bet
    ensures dealerValue <= 21 && dealerValue > playerValue ==> reward == -bet
    ensures dealerValue <= 21 && dealerValue == playerValue ==> reward == 0.0
  {
    if dealerValue > 21 || playerValue > dealerValue then bet
    else if dealerValue > playerValue then -bet
    else 0.0
  }

  /** When neither side busts, settlement is zero-sum: swapping the totals
      negates the reward. */
  lemma SettleAntisymmetric(p: int, d: int, bet: real)
    requires p <= 21 && d <= 21
    ensures Settle(p, d, bet) == -Settle(d, p, bet)
  {
  }

  lemma SettleExamples(bet: real)
    ensures Settle(20, 19, bet) == bet
    ensures Settle(18, 22, bet) == bet
    ensures Settle(17, 17, bet) == 0.0
    ensures Settle(17, 19, bet) == -bet
  {
  }

  /** The end of every round: the money moves by the reward, the new money is
      appended to the money history, and the round's transitions to the history. */
  function EndRound<Tr>(g: Game<Tr>, t: Table, transitions: seq<Tr>, reward: real): (g': Game<Tr>)
    ensures g'.money == g.money + reward
    ensures g'.moneyHistory == g.moneyHistory + [g'.money]
    ensures g'.history == g.history + transitions
    ensures g'.startMoney == g.startMoney && g'.numDecks == g.numDecks && g'.table == t
    ensures LedgerAgrees(g')
  {
    g.(money := g.money + reward,
       table := t,
       moneyHistory := g.moneyHistory + [g.money + reward],
       history := g.history + transitions)
  }

  /** What one finished round does to the record, whichever engine played it. */
  predicate RoundBooked<Tr(==)>(g: Game<Tr>, g': Game<Tr>, reward: real) {
    && g'.startMoney == g.startMoney && g'.numDecks == g.numDecks
    && g'.money == g.money + reward
    && g'.moneyHistory == g.moneyHistory + [g'.money]
    && |g'.history| > |g.history| && g'.history[..|g.history|] == g.history
    && |g'.table.deck| + 4 <= |g.table.deck|
    && g'.table.deck == g.table.deck[..|g'.table.deck|]
  }

  /** A round that dealt at least four cards off the top and recorded at
      least one transition is booked. */
  lemma TurnBooked<Tr>(g: Game<Tr>, t: Table, trs: seq<Tr>, reward: real, g': Game<Tr>)
    requires |t.deck| + 4 <= |g.table.deck| && t.deck == g.table.deck[..|t.deck|]
    requires |trs| >= 1
    requires g' == EndRound(g, t, trs, reward)
    ensures RoundBooked(g, g', reward)
  {
    assert g'.history[..|g.history|] == g.history;
  }

  /** What one round can do to the money: it starts with money in hand, the
      bet never exceeds that money, and a round pays at most one and a half
      times the bet; so it ends between nothing and two and a half times the
      money it started with. */
  predicate RoundMoney(before: real, after: real) {
    before > 0.0 && 0.0 <= after <= 2.5 * before
  }

  /** What a run of rounds does to the record:
      - the histories only grow, keeping their old entries;
      - the money history grows by one entry per round, each within what
        one round can do to the entry before it;
      - every round records at least one transition and takes at least four
        cards off the top of the shoe;
      - a run of no rounds changes nothing. */
  predicate GameExtends<Tr(==)>(g: Game<Tr>, g': Game<Tr>) {
    && g'.startMoney == g.startMoney && g'.numDecks == g.numDecks
    && |g.moneyHistory| <= |g'.moneyHistory| && g'.moneyHistory[..|g.moneyHistory|] == g.moneyHistory
    && |g.history| <= |g'.history| && g'.history[..|g.history|] == g.history
    && |g'.history| - |g.history| >= |g'.moneyHistory| - |g.moneyHistory|
    && 4 * (|g'.moneyHistory| - |g.moneyHistory|) <= |g.table.deck| - |g'.table.deck|
    && g'.table.deck == g.table.deck[..|g'.table.deck|]
    && (|g'.moneyHistory| == |g.moneyHistory| ==> g' == g)
    && (LedgerAgrees(g) ==> LedgerAgrees(g'))
    && (LedgerAgrees(g) ==>
          forall i :: |g.moneyHistory| <= i < |g'.moneyHistory| ==> RoundMoney(g'.moneyHistory[i - 1], g'.moneyHistory[i]))
  }

  lemma GameExtendsRefl<Tr>(g: Game<Tr>)
    ensures GameExtends(g, g)
  {
    assert g.moneyHistory[..|g.moneyHistory|] == g.moneyHistory;
    assert g.history[..|g.history|] == g.history;
    assert g.table.deck[..|g.table.deck|] == g.table.deck;
  }

  /** A booked round whose money moved within what one round can do,
      followed by more rounds, is itself a run of rounds. */
  lemma GameExtendsByRound<Tr>(g: Game<Tr>, g1: Game<Tr>, reward: real, g2: Game<Tr>)
    requires RoundBooked(g, g1, reward) && RoundMoney(g.money, g1.money) && GameExtends(g1, g2)
    ensures GameExtends(g, g2)
  {
    assert g2.moneyHistory[..|g1.moneyHistory|][..|g.moneyHistory|] == g2.moneyHistory[..|g.moneyHistory|];
    assert g2.history[..|g1.history|][..|g.history|] == g2.history[..|g.history|];
    assert g.table.deck[..|g1.table.deck|][..|g2.table.deck|] == g.table.deck[..|g2.table.deck|];
    if LedgerAgrees(g) {
      var n := |g.moneyHistory|;
      assert g2.moneyHistory[n - 1] == g1.moneyHistory[n - 1] == g.money;
      assert g2.moneyHistory[n] == g1.moneyHistory[n] == g1.money;
    }
  }
}

=== FILE: outcomes.dfy ===
/** Failure-compatible result type for the faults the Blackjack engine can raise.

The engine never catches an exception: a fault aborts the whole simulation.
The model therefore turns each such exception into a `Failure` that every
caller propagates with `:-`.
 */
module Outcomes {

  /** The ways a round or a game can stop without finishing. */
  datatype Fault =
    /** `deck.pop()` on an empty list (an `IndexError`). */
    | DeckExhausted
    /** `policy[state]` for a state the policy has no entry for (a `KeyError`). */
    | UnknownState(playerSum: int, dealerHand: int, runningCount: int)
    /** The bet resampling loop found no draw it accepts: it never returns. */
    | BetNeverAccepted

  datatype Result<+T> = Success(value: T) | Failure(fault: Fault) {

    predicate IsFailure() {
      Failure?
    }

    function PropagateFailure<U>(): Result<U>
      requires Failure?
    {
      Failure(fault)
    }

    function Extract(): T
      requires Success?
    {
      value
    }
  }
}

=== FILE: policy_iteration.dfy ===
/** The policy-driven engine: random bets, a round played by looking the
current state up in a policy map, the game loop, and the initial policy.

States are keyed structurally: two `State` values with the same three
fields are the same policy key, as `__eq__` and `__hash__` make them.
 */
module PolicyIteration {
  import opened Cards
  import opened Outcomes
  import opened Dealing
  import opened Engine

  datatype State = State(playerSum: int, dealerHand: int, runningCount: int)

  datatype Transition = Transition(state: State, action: Action, reward: real, next: State)

  type Policy = map<State, Action>

  // ---------------------------------------------------------------------
  // Betting
  // ---------------------------------------------------------------------

  /** The values `random.choices` draws a bet from. */
  type BetValue = b: int | b == 25 || b == 50 || b == 75 || b == 100 witness 25

  datatype Sampled = Sampled(bet: BetValue, rest: seq<BetValue>)

  /** `get_bet_amount`: draw, and redraw while the draw exceeds the money.
      `draws` is the stream of values `random.choices` produces; the result
      also hands back what is left of it. */
  function SampleBet(draws: seq<BetValue>, money: real): (r: Result<Sampled>)
    ensures r.Success? ==> r.value.bet as real <= money
    ensures r.Success? ==> |r.value.rest| < |draws|
    ensures r.Success? ==> var used := |draws| - |r.value.rest|;
                           && draws[used - 1] == r.value.bet
                           && r.value.rest == draws[used..]
                           && forall i :: 0 <= i < used - 1 ==> draws[i] as real > money
    ensures r.Failure? ==> r.fault == BetNeverAccepted
    ensures r.Failure? <==> forall i :: 0 <= i < |draws| ==> draws[i] as real > money
  {
    if |draws| == 0 then Failure(BetNeverAccepted)
    else if draws[0] as real <= money then Success(Sampled(draws[0], draws[1..]))
    else
      var r := SampleBet(draws[1..], money);
      assert forall i :: 1 <= i < |draws| ==> draws[i] == draws[1..][i - 1];
      r
  }

  /** With less money than the smallest bet, no draw is ever accepted: the
      resampling loop never ends, whatever the random stream. */
  lemma {:induction false} SampleBetNeverEndsBelowMinimum(draws: seq<BetValue>, money: real)
    requires money < 25.0
    ensures SampleBet(draws, money) == Failure(BetNeverAccepted)
    decreases |draws|
  {
    if |draws| > 0 {
      SampleBetNeverEndsBelowMinimum(draws[1..], money);
    }
  }

  // ---------------------------------------------------------------------
  // One round
  // ---------------------------------------------------------------------

  /** The state the round starts from: the player's two cards, the dealer's
      up-card alone, and the count after the three counted opening cards. */
  function InitialState(t: Table): State
    requires |t.deck| >= 4
  {
    State(HandValue(PlayerOpening(t.deck)), HandValue([UpCard(t.deck)]), OpeningTable(t).runningCount)
  }

  /** Each action after the first is the policy's choice for the state the
      previous transition led to. */
  predicate FollowsPolicy(trs: seq<Transition>, policy: Policy) {
    forall i :: 0 <= i < |trs| - 1 ==> trs[i].next in policy && trs[i + 1].action == policy[trs[i].next]
  }

  datatype RoundEnd = RoundEnd(table: Table, transitions: seq<Transition>, reward: real)

  /** What the player's turn records: every transition starts from the
      round's initial state `s0`; all but the last are hits that did not bust
      and pay nothing; each action after the first is the policy's choice for
      the state the previous hit led to; the last transition carries the
      round's reward: a bust loses the bet, a stand is settled against a
      dealer who reached at least 17. */
  predicate TurnRecord(s0: State, first: Action, policy: Policy, up: Card, bet: real, e: RoundEnd) {
    var trs := e.transitions;
    && |trs| >= 1
    && trs[0].action == first
    && (forall i :: 0 <= i < |trs| ==> trs[i].state == s0)
    && (forall i :: 0 <= i < |trs| - 1 ==>
          trs[i].action == Hit && trs[i].reward == 0.0
          && trs[i].next.playerSum <= 21 && trs[i].next.dealerHand == HandValue([up]))
    && FollowsPolicy(trs, policy)
    && Last(trs).reward == e.reward
    && Last(trs).next.runningCount == e.table.runningCount
    && (Last(trs).action == Hit ==> Last(trs).next.playerSum > 21 && e.reward == -bet)
    && (Last(trs).action == Stand ==>
          Last(trs).next.dealerHand >= 17
          && e.reward == Settle(Last(trs).next.playerSum, Last(trs).next.dealerHand, bet))
  }

  function ShownOf(tr: Transition): Shown {
    Shown(tr.action, tr.next.playerSum, tr.next.dealerHand, tr.next.runningCount)
  }

  /** Everything a completed turn promises: its record, that it only dealt
      counted cards off the top, and the totals and counts it recorded. */
  predicate TurnPlayed(s0: State, first: Action, policy: Policy, t: Table, player: seq<Card>, dealer: seq<Card>,
                       bet: real, e: RoundEnd)
    requires |dealer| == 2
  {
    && TurnRecord(s0, first, policy, dealer[0], bet, e)
    && CountedDraw(t, e.table)
    && TotalsFromShoe(t.deck, player, dealer, e.table.deck, ShownBy(e.transitions, ShownOf))
    && HitCounts(t, ShownBy(e.transitions, ShownOf))
  }

  /** The player's loop from `action` on: hit (counting the card) until a
      bust or a stand, looking the new state up in the policy after every
      hit that does not bust; on a stand, the dealer's turn and settlement. */
  function PlayerTurn(t: Table, player: seq<Card>, dealer: seq<Card>, s0: State,
                      action: Action, policy: Policy, bet: real): (r: Result<RoundEnd>)
    requires |dealer| == 2
    ensures r.Failure? ==> r.fault.DeckExhausted? || r.fault.UnknownState?
    ensures r.Success? ==> TurnPlayed(s0, action, policy, t, player, dealer, bet, r.value)
    decreases |t.deck|
  {
    match action
    case Stand =>
      var d :- DealerTurn(t, dealer);
      DealerDrewStops(t, dealer, d);
      var pv, dv := HandValue(player), HandValue(d.hand);
      var reward := Settle(pv, dv, bet);
      var e := RoundEnd(d.table, [Transition(s0, Stand, reward, State(pv, dv, d.table.runningCount))], reward);
      StandTurn(s0, policy, t, player, dealer, bet, d, e);
      Success(e)
    case Hit =>
      var dealt :- Deal(t, true);
      var hand := player + [dealt.card];
      var count := dealt.table.runningCount;
      if HandValue(hand) > 21 then
        var e := RoundEnd(dealt.table, [Transition(s0, Hit, -bet, State(HandValue(hand), HandValue(dealer), count))], -bet);
        BustTurn(s0, policy, t, player, dealer, bet, dealt, e);
        Success(e)
      else
        var next := State(HandValue(hand), HandValue([dealer[0]]), count);
        if next !in policy then Failure(UnknownState(next.playerSum, next.dealerHand, next.runningCount))
        else
          var rest :- PlayerTurn(dealt.table, hand, dealer, s0, policy[next], policy, bet);
          var e := RoundEnd(rest.table, [Transition(s0, Hit, 0.0, next)] + rest.transitions, rest.reward);
          HitTurn(s0, policy, t, player, dealer, bet, dealt, rest, e);
          Success(e)
  }

  lemma StandTurn(s0: State, policy: Policy, t: Table, player: seq<Card>, dealer: seq<Card>, bet: real,
                  d: DealerDone, e: RoundEnd)
    requires |dealer| == 2
    requires CountedDraw(t, d.table) && HandValue(d.hand) >= 17
    requires d.hand == dealer + TopCards(t.deck, |t.deck| - |d.table.deck|)
    requires BelowSeventeen(t.deck, dealer, |t.deck| - |d.table.deck|)
    requires e == RoundEnd(d.table,
                           [Transition(s0, Stand, Settle(HandValue(player), HandValue(d.hand), bet),
                                       State(HandValue(player), HandValue(d.hand), d.table.runningCount))],
                           Settle(HandValue(player), HandValue(d.hand), bet))
    ensures TurnPlayed(s0, Stand, policy, t, player, dealer, bet, e)
  {
    var tr := e.transitions[0];
    assert Last(e.transitions) == tr;
    StandTotals(t.deck, player, dealer, d.table.deck, ShownOf(tr));
    assert ShownBy(e.transitions, ShownOf) == [ShownOf(tr)];
    assert HitCounts(t, [ShownOf(tr)]);
  }

  lemma BustTurn(s0: State, policy: Policy, t: Table, player: seq<Card>, dealer: seq<Card>, bet: real,
                 dealt: Dealt, e: RoundEnd)
    requires |dealer| == 2 && DealtFrom(t, dealt)
    requires HandValue(player + [dealt.card]) > 21
    requires e == RoundEnd(dealt.table,
                           [Transition(s0, Hit, -bet, State(HandValue(player + [dealt.card]), HandValue(dealer),
                                                            dealt.table.runningCount))],
                           -bet)
    ensures TurnPlayed(s0, Hit, policy, t, player, dealer, bet, e)
  {
    var tr := e.transitions[0];
    assert Last(e.transitions) == tr;
    DealIsCountedDraw(t, dealt);
    BustTotals(t.deck, player, dealer, dealt.table.deck, ShownOf(tr));
    assert ShownBy(e.transitions, ShownOf) == [ShownOf(tr)] == [ShownOf(tr)] + [];
    HitCountsPrepend(t, dealt, ShownOf(tr), [], [ShownOf(tr)]);
  }

  lemma HitTurn(s0: State, policy: Policy, t: Table, player: seq<Card>, dealer: seq<Card>, bet: real,
                dealt: Dealt, rest: RoundEnd, e: RoundEnd)
    requires |dealer| == 2 && DealtFrom(t, dealt)
    requires HandValue(player + [dealt.card]) <= 21
    requires State(HandValue(player + [dealt.card]), HandValue([dealer[0]]), dealt.table.runningCount) in policy
    requires TurnPlayed(s0, policy[State(HandValue(player + [dealt.card]), HandValue([dealer[0]]), dealt.table.runningCount)],
                        policy, dealt.table, player + [dealt.card], dealer, bet, rest)
    requires e == RoundEnd(rest.table,
                           [Transition(s0, Hit, 0.0, State(HandValue(player + [dealt.card]), HandValue([dealer[0]]),
                                                           dealt.table.runningCount))]
                           + rest.transitions,
                           rest.reward)
    ensures TurnPlayed(s0, Hit, policy, t, player, dealer, bet, e)
  {
    var next := e.transitions[0].next;
    DealIsCountedDraw(t, dealt);
    CountedDrawTrans(t, dealt.table, rest.table);
    HitPrepends(s0, policy, dealer[0], bet, next, rest, e);
    ShownByPrepend(e.transitions[0], rest.transitions, ShownOf);
    TotalsPrepend(t.deck, player, dealer, rest.table.deck, ShownOf(e.transitions[0]), ShownBy(rest.transitions, ShownOf),
                  ShownBy(e.transitions, ShownOf));
    HitCountsPrepend(t, dealt, ShownOf(e.transitions[0]), ShownBy(rest.transitions, ShownOf), ShownBy(e.transitions, ShownOf));
  }

  lemma HitPrepends(s0: State, policy: Policy, up: Card, bet: real, next: State, rest: RoundEnd, e: RoundEnd)
    requires next in policy && next.playerSum <= 21 && next.dealerHand == HandValue([up])
    requires TurnRecord(s0, policy[next], policy, up, bet, rest)
    requires e == RoundEnd(rest.table, [Transition(s0, Hit, 0.0, next)] + rest.transitions, rest.reward)
    ensures TurnRecord(s0, Hit, policy, up, bet, e)
  {
    var trs := e.transitions;
    assert forall i :: 0 <= i < |rest.transitions| ==> trs[i + 1] == rest.transitions[i];
    assert Last(trs) == Last(rest.transitions);
  }

  /** A turn never runs out of cards while the player holds at most 21
      cards and the hand and the shoe hold 31 between them: a hand of 22
      cards is worth more than 21, so the player stops within 21 - |hand|
      hits, which leaves the dealer at least 10 cards, enough to reach 17
      from two. Such a turn fails only on a missing policy entry. */
  lemma PlayerTurnNeverRunsOut(t: Table, player: seq<Card>, dealer: seq<Card>, s0: State,
                               action: Action, policy: Policy, bet: real)
    requires |dealer| == 2 && |player| <= 21 && |player| + |t.deck| >= 31
    ensures PlayerTurn(t, player, dealer, s0, action, policy, bet).Failure? ==>
              PlayerTurn(t, player, dealer, s0, action, policy, bet).fault.UnknownState?
    decreases |t.deck|
  {
    match action
    case Stand =>
      DealerTurnSucceeds(t, dealer);
    case Hit =>
      var dealt := Deal(t, true).value;
      var hand := player + [dealt.card];
      var next := State(HandValue(hand), HandValue([dealer[0]]), dealt.table.runningCount);
      if HandValue(hand) <= 21 && next in policy {
        HandValueAtLeastSize(hand);
        PlayerTurnNeverRunsOut(dealt.table, hand, dealer, s0, policy[next], policy, bet);
      }
  }

  /** What `play_round` records in a round that completes, with `trs` the
      transitions it appended:
      - every transition starts from the round's initial state, all but the
        last are zero-reward hits, and the last carries the round's reward;
      - every card dealt is counted exactly once, except a hole card that is
        never revealed (it is revealed only after a natural);
      - a natural is a single stand paid 3:2, or a push when the dealer's
        two cards also make 21;
      - otherwise each action is the policy's choice, a bust loses the bet
        and a stand is settled against a dealer total of at least 17. */
  predicate PolicyRound(g: Game<Transition>, policy: Policy, bet: BetValue, g': Game<Transition>, reward: real)
    requires |g.table.deck| >= 4
    requires |g'.table.deck| <= |g.table.deck| && |g.history| <= |g'.history|
  {
    var deck := g.table.deck;
    var trs := g'.history[|g.history|..];
    && |trs| >= 1
    && (forall i :: 0 <= i < |trs| ==> trs[i].state == InitialState(g.table))
    && (forall i :: 0 <= i < |trs| - 1 ==> trs[i].action == Hit && trs[i].reward == 0.0)
    && Last(trs).reward == reward
    && Last(trs).next.runningCount == g'.table.runningCount
    && g'.table.runningCount
         == g.table.runningCount + HiLoTotal(deck[|g'.table.deck|..])
            - (if IsNatural(deck) then 0 else HiLo(HoleCard(deck).rank))
    && (IsNatural(deck) ==> NaturalRecorded(deck, bet, trs, |g'.table.deck|, reward))
    && (!IsNatural(deck) ==> PlayedRecorded(g.table, policy, bet, trs, g'.table.deck, reward))
  }

  /** A natural: one stand, showing 21 against the dealer's two cards, and no
      card dealt after the opening four. */
  predicate NaturalRecorded(deck: seq<Card>, bet: BetValue, trs: seq<Transition>, left: nat, reward: real)
    requires |deck| >= 4
  {
    var dealer := [UpCard(deck), HoleCard(deck)];
    && |trs| == 1 && trs[0].action == Stand && left == |deck| - 4
    && trs[0].next.playerSum == 21 && trs[0].next.dealerHand == HandValue(dealer)
    && reward == (if HandValue(dealer) == 21 then 0.0 else bet as real * 1.5)
  }

  /** A round without a natural, played by the policy from the initial state
      on the shoe left after the opening deal. */
  predicate PlayedRecorded(t: Table, policy: Policy, bet: BetValue, trs: seq<Transition>, left: seq<Card>, reward: real)
    requires |t.deck| >= 4
  {
    && |trs| >= 1
    && InitialState(t) in policy
    && trs[0].action == policy[InitialState(t)]
    && FollowsPolicy(trs, policy)
    && (forall i :: 0 <= i < |trs| - 1 ==> trs[i].next.playerSum <= 21 && trs[i].next.dealerHand == HandValue([UpCard(t.deck)]))
    && TotalsFromShoe(t.deck[..|t.deck| - 4], PlayerOpening(t.deck), [UpCard(t.deck), HoleCard(t.deck)], left, ShownBy(trs, ShownOf))
    && HitCounts(OpeningTable(t), ShownBy(trs, ShownOf))
    && (Last(trs).action == Hit ==> Last(trs).next.playerSum > 21 && reward == -(bet as real))
    && (Last(trs).action == Stand ==>
          Last(trs).next.dealerHand >= 17
          && reward == Settle(Last(trs).next.playerSum, Last(trs).next.dealerHand, bet as real))
  }

  /** `play_round` with the bet `get_bet_amount` produced. */
  function PlayRound(g: Game<Transition>, policy: Policy, bet: BetValue): (r: Result<(Game<Transition>, real)>)
    ensures |g.table.deck| < 4 ==> r == Failure(DeckExhausted)
    ensures r.Failure? ==> r.fault.DeckExhausted? || r.fault.UnknownState?
    ensures r.Success? ==> RoundBooked(g, r.value.0, r.value.1)
    ensures r.Success? ==> PolicyRound(g, policy, bet, r.value.0, r.value.1)
  {
    var o :- DealOpening(g.table);
    RoundFromOpening(g, policy, bet, o)
  }

  /** The rest of `play_round` once the four opening cards are out. */
  function RoundFromOpening(g: Game<Transition>, policy: Policy, bet: BetValue, o: Opening)
    : (r: Result<(Game<Transition>, real)>)
    requires OpenedFrom(g.table, o)
    ensures r.Failure? ==> r.fault.DeckExhausted? || r.fault.UnknownState?
    ensures r.Success? ==> RoundBooked(g, r.value.0, r.value.1)
    ensures r.Success? ==> PolicyRound(g, policy, bet, r.value.0, r.value.1)
  {
    var s0 := State(HandValue(o.player), HandValue([o.dealer[0]]), o.table.runningCount);
    OpenedCount(g.table, o);
    assert s0 == InitialState(g.table);
    if HandValue(o.player) == 21 then
      var reward := if HandValue(o.dealer) == 21 then 0.0 else bet as real * 1.5;
      var t := o.table.(runningCount := UpdateCount(o.table.runningCount, o.dealer[1]));
      var tr := Transition(s0, Stand, reward, State(HandValue(o.player), HandValue(o.dealer), t.runningCount));
      var g' := EndRound(g, t, [tr], reward);
      NaturalRound(g, policy, bet, o, g', reward);
      Success((g', reward))
    else if s0 !in policy then
      Failure(UnknownState(s0.playerSum, s0.dealerHand, s0.runningCount))
    else
      var e :- PlayerTurn(o.table, o.player, o.dealer, s0, policy[s0], policy, bet as real);
      var g' := EndRound(g, e.table, e.transitions, e.reward);
      PlayedRound(g, policy, bet, o, e, g');
      Success((g', e.reward))
  }

  lemma NaturalRound(g: Game<Transition>, policy: Policy, bet: BetValue, o: Opening, g': Game<Transition>, reward: real)
    requires OpenedFrom(g.table, o)
    requires HandValue(o.player) == 21
    requires reward == (if HandValue(o.dealer) == 21 then 0.0 else bet as real * 1.5)
    requires g' == EndRound(g, o.table.(runningCount := UpdateCount(o.table.runningCount, o.dealer[1])),
                            [Transition(InitialState(g.table), Stand, reward,
                                        State(HandValue(o.player), HandValue(o.dealer),
                                              UpdateCount(o.table.runningCount, o.dealer[1])))], reward)
    ensures RoundBooked(g, g', reward)
    ensures PolicyRound(g, policy, bet, g', reward)
  {
    assert g'.history[|g.history|..] == [Transition(InitialState(g.table), Stand, reward,
                                        State(HandValue(o.player), HandValue(o.dealer),
                                              UpdateCount(o.table.runningCount, o.dealer[1])))];
    assert g.table.deck[|g'.table.deck|..] == g.table.deck[|g.table.deck| - 4..];
    assert g'.history[..|g.history|] == g.history;
  }

  lemma PlayedRound(g: Game<Transition>, policy: Policy, bet: BetValue, o: Opening, e: RoundEnd, g': Game<Transition>)
    requires OpenedFrom(g.table, o)
    requires HandValue(o.player) != 21
    requires InitialState(g.table) in policy
    requires TurnPlayed(InitialState(g.table), policy[InitialState(g.table)], policy, o.table, o.player, o.dealer,
                        bet as real, e)
    requires g' == EndRound(g, e.table, e.transitions, e.reward)
    ensures RoundBooked(g, g', e.reward)
    ensures PolicyRound(g, policy, bet, g', e.reward)
  {
    OpenedCount(g.table, o);
    PlayedFromTurn(g.table, policy, bet, o, e);
    OpeningThenDraws(g.table, o, e.table);
    TurnBooked(g, e.table, e.transitions, e.reward, g');
    PlayedRoundRecords(g, policy, bet, e, g');
  }

  lemma PlayedFromTurn(t: Table, policy: Policy, bet: BetValue, o: Opening, e: RoundEnd)
    requires |t.deck| >= 4
    requires o.player == PlayerOpening(t.deck) && o.dealer == [UpCard(t.deck), HoleCard(t.deck)]
    requires o.table == OpeningTable(t)
    requires InitialState(t) in policy
    requires TurnPlayed(InitialState(t), policy[InitialState(t)], policy, o.table, o.player, o.dealer, bet as real, e)
    ensures CountedDraw(o.table, e.table)
    ensures TurnRecord(InitialState(t), policy[InitialState(t)], policy, UpCard(t.deck), bet as real, e)
    ensures PlayedRecorded(t, policy, bet, e.transitions, e.table.deck, e.reward)
  {
    var trs := e.transitions;
    assert TurnRecord(InitialState(t), policy[InitialState(t)], policy, o.dealer[0], bet as real, e);
    assert TotalsFromShoe(o.table.deck, o.player, o.dealer, e.table.deck, ShownBy(trs, ShownOf));
    assert HitCounts(o.table, ShownBy(trs, ShownOf));
    assert forall i :: 0 <= i < |trs| - 1 ==> trs[i].next.playerSum <= 21 && trs[i].next.dealerHand == HandValue([UpCard(t.deck)]);
  }

  lemma PlayedRoundRecords(g: Game<Transition>, policy: Policy, bet: BetValue, e: RoundEnd, g': Game<Transition>)
    requires |g.table.deck| >= 4 && !IsNatural(g.table.deck)
    requires |e.table.deck| + 4 <= |g.table.deck|
    requires e.table.runningCount + HiLo(HoleCard(g.table.deck).rank)
               == g.table.runningCount + HiLoTotal(g.table.deck[|e.table.deck|..])
    requires InitialState(g.table) in policy
    requires TurnRecord(InitialState(g.table), policy[InitialState(g.table)], policy, UpCard(g.table.deck), bet as real, e)
    requires PlayedRecorded(g.table, policy, bet, e.transitions, e.table.deck, e.reward)
    requires g' == EndRound(g, e.table, e.transitions, e.reward)
    ensures PolicyRound(g, policy, bet, g', e.reward)
  {
    assert g'.history[|g.history|..] == e.transitions;
  }

  /** The policy key looked up after the `i`-th hit of a round without a
      natural: the opening cards plus the top `i + 1` cards left after the
      deal, the up-card alone, and the count with all of those counted. */
  lemma ConsultedKey(g: Game<Transition>, policy: Policy, bet: BetValue, g': Game<Transition>, reward: real, i: nat)
    requires |g.table.deck| >= 4 && !IsNatural(g.table.deck)
    requires |g'.table.deck| <= |g.table.deck| && |g.history| <= |g'.history|
    requires PolicyRound(g, policy, bet, g', reward)
    requires i + 1 < |g'.history| - |g.history|
    ensures var t0, trs := OpeningTable(g.table), g'.history[|g.history|..];
            && i + 1 <= |t0.deck|
            && trs[i].next == State(HandValue(PlayerOpening(g.table.deck) + TopCards(t0.deck, i + 1)),
                                    HandValue([UpCard(g.table.deck)]),
                                    t0.runningCount + HiLoTotal(t0.deck[|t0.deck| - (i + 1)..]))
            && trs[i].next in policy && trs[i + 1].action == policy[trs[i].next]
  {
    var trs := g'.history[|g.history|..];
    assert ShownBy(trs, ShownOf)[i] == ShownOf(trs[i]);
  }

  /** A round on a shoe of at least 33 cards never runs out of cards: it
      fails only on a missing policy entry. */
  lemma PlayRoundNeverRunsOut(g: Game<Transition>, policy: Policy, bet: BetValue)
    requires |g.table.deck| >= 33
    ensures PlayRound(g, policy, bet).Failure? ==> PlayRound(g, policy, bet).fault.UnknownState?
  {
    var o := DealOpening(g.table).value;
    var s0 := State(HandValue(o.player), HandValue([o.dealer[0]]), o.table.runningCount);
    if HandValue(o.player) != 21 && s0 in policy {
      PlayerTurnNeverRunsOut(o.table, o.player, o.dealer, s0, policy[s0], policy, bet as real);
    }
  }

  /** The reward of a round is one of: nothing, the bet, minus the bet, or
      one and a half times the bet. */
  lemma RoundRewardValues(g: Game<Transition>, policy: Policy, bet: BetValue)
    requires PlayRound(g, policy, bet).Success?
    ensures PlayRound(g, policy, bet).value.1 in {0.0, bet as real, -(bet as real), bet as real * 1.5}
  {
    var (g', reward) := PlayRound(g, policy, bet).value;
    var trs := g'.history[|g.history|..];
    if !IsNatural(g.table.deck) && Last(trs).action == Stand {
      var p, d := Last(trs).next.playerSum, Last(trs).next.dealerHand;
      assert reward == Settle(p, d, bet as real);
    }
  }

  // ---------------------------------------------------------------------
  // The game loop
  // ---------------------------------------------------------------------

  /** `play_game`: play rounds, each with a freshly sampled bet, while there
      is money left and more than 26 cards in the shoe. */
  function PlayGame(g: Game<Transition>, policy: Policy, draws: seq<BetValue>): (r: Result<Game<Transition>>)
    ensures r.Success? ==> !KeepPlaying(r.value) && GameExtends(g, r.value)
    ensures r.Success? && KeepPlaying(g) ==> |r.value.moneyHistory| > |g.moneyHistory|
    ensures r.Failure? ==> r.fault.DeckExhausted? || r.fault.UnknownState? || r.fault.BetNeverAccepted?
    ensures !KeepPlaying(g) ==> r == Success(g)
    decreases |g.table.deck|
  {
    if !KeepPlaying(g) then
      GameExtendsRefl(g);
      Success(g)
    else
      var sampled :- SampleBet(draws, g.money);
      var round :- PlayRound(g, policy, sampled.bet);
      var rest :- PlayGame(round.0, policy, sampled.rest);
      RoundKeepsMoney(g, policy, sampled.bet);
      GameExtendsByRound(g, round.0, round.1, rest);
      Success(rest)
  }

  /** A round played with a bet the sampler accepted moves the money within
      what one round can: the bet is at most the money and the reward at
      most one and a half times the bet. */
  lemma RoundKeepsMoney(g: Game<Transition>, policy: Policy, bet: BetValue)
    requires KeepPlaying(g) && bet as real <= g.money
    requires PlayRound(g, policy, bet).Success?
    ensures RoundMoney(g.money, PlayRound(g, policy, bet).value.0.money)
  {
    RoundRewardValues(g, policy, bet);
  }

  /** `g2`, with the draws `rest` still unused, is where the game loop stands
      after zero or more complete rounds from `g`: each allowed to start,
      with a bet the sampler accepted, and played to its end. */
  predicate RoundsFrom(g: Game<Transition>, policy: Policy, draws: seq<BetValue>, g2: Game<Transition>, rest: seq<BetValue>)
    decreases |g.table.deck|
  {
    || (g2 == g && rest == draws)
    || (&& KeepPlaying(g)
        && SampleBet(draws, g.money).Success?
        && var sampled := SampleBet(draws, g.money).value;
           && PlayRound(g, policy, sampled.bet).Success?
           && RoundsFrom(PlayRound(g, policy, sampled.bet).value.0, policy, sampled.rest, g2, rest))
  }

  /** The round the game loop starts at `g` fails with `fault`: either the
      sampler accepts no draw, or the round played with the accepted bet
      fails. */
  predicate RoundFails(g: Game<Transition>, policy: Policy, draws: seq<BetValue>, fault: Fault) {
    match SampleBet(draws, g.money)
    case Failure(f) => f == fault
    case Success(sampled) => PlayRound(g, policy, sampled.bet) == Failure(fault)
  }

  /** Complete rounds only extend the record. */
  lemma {:induction false} RoundsExtend(g: Game<Transition>, policy: Policy, draws: seq<BetValue>,
                                        g2: Game<Transition>, rest: seq<BetValue>)
    requires RoundsFrom(g, policy, draws, g2, rest)
    ensures GameExtends(g, g2)
    decreases |g.table.deck|
  {
    if g2 == g && rest == draws {
      GameExtendsRefl(g);
    } else {
      var sampled := SampleBet(draws, g.money).value;
      var round := PlayRound(g, policy, sampled.bet).value;
      RoundsExtend(round.0, policy, sampled.rest, g2, rest);
      RoundKeepsMoney(g, policy, sampled.bet);
      GameExtendsByRound(g, round.0, round.1, g2);
    }
  }

  /** A finished game is reached from the start by complete rounds. */
  lemma {:induction false} PlayGameIsRounds(g: Game<Transition>, policy: Policy, draws: seq<BetValue>)
    requires PlayGame(g, policy, draws).Success?
    ensures exists rest :: RoundsFrom(g, policy, draws, PlayGame(g, policy, draws).value, rest)
    decreases |g.table.deck|
  {
    if !KeepPlaying(g) {
      assert RoundsFrom(g, policy, draws, g, draws);
    } else {
      var sampled := SampleBet(draws, g.money).value;
      var round := PlayRound(g, policy, sampled.bet).value;
      PlayGameIsRounds(round.0, policy, sampled.rest);
      var rest :| RoundsFrom(round.0, policy, sampled.rest, PlayGame(round.0, policy, sampled.rest).value, rest);
      assert RoundsFrom(g, policy, draws, PlayGame(g, policy, draws).value, rest);
    }
  }

  /** A game fails only in a round reached by complete rounds and allowed to
      start, which fails the same way; it runs out of cards only in such a
      round that starts with fewer than 33 cards, since every longer shoe
      suffices for a round. */
  lemma {:induction false} PlayGameFailsInRound(g: Game<Transition>, policy: Policy, draws: seq<BetValue>)
    requires PlayGame(g, policy, draws).Failure?
    ensures exists g2, rest ::
              && RoundsFrom(g, policy, draws, g2, rest) && KeepPlaying(g2)
              && RoundFails(g2, policy, rest, PlayGame(g, policy, draws).fault)
              && (PlayGame(g, policy, draws).fault == DeckExhausted ==> |g2.table.deck| < 33)
    decreases |g.table.deck|
  {
    var f := PlayGame(g, policy, draws).fault;
    var sb := SampleBet(draws, g.money);
    if sb.Failure? {
      assert RoundsFrom(g, policy, draws, g, draws) && RoundFails(g, policy, draws, f);
    } else {
      var round := PlayRound(g, policy, sb.value.bet);
      if round.Failure? {
        if |g.table.deck| >= 33 {
          PlayRoundNeverRunsOut(g, policy, sb.value.bet);
        }
        assert RoundsFrom(g, policy, draws, g, draws) && RoundFails(g, policy, draws, f);
      } else {
        PlayGameFailsInRound(round.value.0, policy, sb.value.rest);
        var g2, rest :| && RoundsFrom(round.value.0, policy, sb.value.rest, g2, rest) && KeepPlaying(g2)
                        && RoundFails(g2, policy, rest, f)
                        && (f == DeckExhausted ==> |g2.table.deck| < 33);
        assert RoundsFrom(g, policy, draws, g2, rest);
      }
    }
  }

  /** Once the money has fallen below the smallest bet but is still positive,
      and the shoe still has more than 26 cards, the game never finishes. */
  lemma PlayGameHangsWhenBroke(g: Game<Transition>, policy: Policy, draws: seq<BetValue>)
    requires 0.0 < g.money < 25.0 && |g.table.deck| > 26
    ensures PlayGame(g, policy, draws) == Failure(BetNeverAccepted)
  {
    SampleBetNeverEndsBelowMinimum(draws, g.money);
  }

  // ---------------------------------------------------------------------
  // The initial policy
  // ---------------------------------------------------------------------

  /** The states `initialize_policy` covers: player sums 4..21, dealer
      values 1..10, running count 0. */
  predicate InPolicyDomain(s: State) {
    4 <= s.playerSum <= 21 && 1 <= s.dealerHand <= 10 && s.runningCount == 0
  }

  /** The position of a domain state in the order the nested loops visit it. */
  function DomainIndex(s: State): (k: int)
    requires InPolicyDomain(s)
    ensures 0 <= k < 180
  {
    (s.playerSum - 4) * 10 + (s.dealerHand - 1)
  }

  lemma DomainIndexInjective(a: State, b: State)
    requires InPolicyDomain(a) && InPolicyDomain(b) && DomainIndex(a) == DomainIndex(b)
    ensures a == b
  {
  }

  /** `initialize_policy`: one random choice per domain state, drawn in loop
      order (player sum outer, dealer value inner) from `choices`. */
  method InitializePolicy(choices: seq<Action>) returns (policy: Policy)
    requires |choices| == 180
    ensures forall s :: s in policy <==> InPolicyDomain(s)
    ensures forall s :: s in policy ==> InPolicyDomain(s) && policy[s] == choices[DomainIndex(s)]
    ensures |policy| == 180
  {
    policy := map[];
    var playerSum := 4;
    while playerSum < 22
      invariant 4 <= playerSum <= 22
      invariant forall s :: s in policy <==> InPolicyDomain(s) && DomainIndex(s) < (playerSum - 4) * 10
      invariant forall s :: s in policy ==> InPolicyDomain(s) && policy[s] == choices[DomainIndex(s)]
      invariant |policy| == (playerSum - 4) * 10
    {
      var dealerCard := 1;
      while dealerCard < 11
        invariant 1 <= dealerCard <= 11
        invariant forall s :: s in policy <==> InPolicyDomain(s) && DomainIndex(s) < (playerSum - 4) * 10 + dealerCard - 1
        invariant forall s :: s in policy ==> InPolicyDomain(s) && policy[s] == choices[DomainIndex(s)]
        invariant |policy| == (playerSum - 4) * 10 + dealerCard - 1
      {
        var state := State(playerSum, dealerCard, 0);
        var k := (playerSum - 4) * 10 + dealerCard - 1;
        assert DomainIndex(state) == k;
        forall s | InPolicyDomain(s) && DomainIndex(s) == k
          ensures s == state
        {
          DomainIndexInjective(s, state);
        }
        policy := policy[state := choices[k]];
        dealerCard := dealerCard + 1;
      }
      playerSum := playerSum + 1;
    }
  }
  /** An ace up-card is valued 11, outside the initial policy's dealer values,
      so with that policy every round without a natural and with an ace
      showing fails on the policy lookup. */
  lemma AceUpCardMissesInitialPolicy(g: Game<Transition>, policy: Policy, bet: BetValue)
    requires forall s :: s in policy <==> InPolicyDomain(s)
    requires |g.table.deck| >= 4 && UpCard(g.table.deck).rank == Ace && !IsNatural(g.table.deck)
    ensures PlayRound(g, policy, bet).Failure?
    ensures PlayRound(g, policy, bet).fault.UnknownState?
  {
    var up := UpCard(g.table.deck);
    assert HandValue([up]) == 11 by {
      HandTotalsPush([], up);
      assert [] + [up] == [up];
    }
    var o := DealOpening(g.table).value;
    assert o.dealer[0] == up;
    var s0 := State(HandValue(o.player), HandValue([o.dealer[0]]), o.table.runningCount);
    assert s0 !in policy;
    assert RoundFromOpening(g, policy, bet, o) == Failure(UnknownState(s0.playerSum, 11, s0.runningCount));
  }
}

=== FILE: simulator.dfy ===
/** The count-based engine: bets sized by the true count, and a fixed
strategy that hits below 17.

Its states also carry the remaining-deck estimate. The strategy tests the
player sum of the most recently built `state`, and a hit rebuilds that state
BEFORE drawing; so after the first hit every decision looks at the total the
player had before the latest card, not the current one.
 */
module Simulator {
  import opened Cards
  import opened Outcomes
  import opened Dealing
  import opened Engine

  datatype State = State(playerSum: int, dealerHand: int, runningCount: int, remainingDecks: real)

  datatype Transition = Transition(state: State, action: Action, reward: real, next: State)

  // ---------------------------------------------------------------------
  // Remaining decks, true count and the bet
  // ---------------------------------------------------------------------

  /** The cards left, in decks, rounded to tenths: `round(cards / 52, 1)`,
      with an exact tie going to the even number of tenths. The result is
      in tenths of a deck. */
  function RemainingTenths(cards: nat): (t: nat)
    ensures -26 <= 52 * t - 10 * cards <= 26
    ensures 52 * t - 10 * cards == 26 || 52 * t - 10 * cards == -26 ==> t % 2 == 0
  {
    var q, rem := (10 * cards) / 52, (10 * cards) % 52;
    RoundingSteps(10 * cards, q, rem);
    if 2 * rem > 52 || (2 * rem == 52 && q % 2 == 1) then q + 1 else q
  }

  /** The two candidates around `x / 52`, with the distance of each. */
  lemma RoundingSteps(x: int, q: int, rem: int)
    requires q == x / 52 && rem == x % 52
    ensures x == 52 * q + rem && 0 <= rem < 52
    ensures 52 * (q + 1) - x == 52 - rem && 52 * q - x == -rem
    ensures q % 2 == 1 ==> (q + 1) % 2 == 0
  {
  }

  /** Rounding to the nearest tenth, ties to even, has exactly one answer. */
  lemma RemainingTenthsUnique(cards: nat, t: nat)
    requires -26 <= 52 * t - 10 * cards <= 26
    requires 52 * t - 10 * cards == 26 || 52 * t - 10 * cards == -26 ==> t % 2 == 0
    ensures t == RemainingTenths(cards)
  {
    var u := RemainingTenths(cards);
    var x, y := 52 * t - 10 * cards, 52 * u - 10 * cards;
    assert x - y == 52 * (t - u);
    assert -1 <= t - u <= 1;
  }

  /** `get_remaining_decks`, as an exact number of decks. */
  function RemainingDecks(cards: nat): real {
    RemainingTenths(cards) as real / 10.0
  }

  /** The running count per remaining deck, or 0 when the estimate is 0. */
  function TrueCount(runningCount: int, remainingDecks: real): real {
    if remainingDecks > 0.0 then runningCount as real / remainingDecks else 0.0
  }

  /** The bet tier for a true count: 100 from 5 up, 75 from 3, 50 from 1,
      25 below. */
  function BetTier(trueCount: real): (bet: real)
    ensures bet == 25.0 || bet == 50.0 || bet == 75.0 || bet == 100.0
    ensures bet == 100.0 <==> trueCount >= 5.0
    ensures bet >= 75.0 <==> trueCount >= 3.0
    ensures bet >= 50.0 <==> trueCount >= 1.0
  {
    if trueCount >= 5.0 then 100.0
    else if trueCount >= 3.0 then 75.0
    else if trueCount >= 1.0 then 50.0
    else 25.0
  }

  /** `get_bet_amount`: the tier for the current true count, capped at the
      money the player has. */
  function GetBetAmount(money: real, runningCount: int, cards: nat): (bet: real)
    ensures bet <= money && bet <= 100.0
    ensures bet == money || bet == BetTier(TrueCount(runningCount, RemainingDecks(cards)))
    ensures bet <= BetTier(TrueCount(runningCount, RemainingDecks(cards)))
    ensures money >= 25.0 ==> bet >= 25.0
  {
    var tier := BetTier(TrueCount(runningCount, RemainingDecks(cards)));
    if tier <= money then tier else money
  }

  /** A higher true count never lowers the tier. */
  lemma BetTierMonotone(lo: real, hi: real)
    requires lo <= hi
    ensures BetTier(lo) <= BetTier(hi)
  {
  }

  /** With the same money, a higher true count never lowers the bet. */
  lemma GetBetAmountMonotone(money: real, rc1: int, cards1: nat, rc2: int, cards2: nat)
    requires TrueCount(rc1, RemainingDecks(cards1)) <= TrueCount(rc2, RemainingDecks(cards2))
    ensures GetBetAmount(money, rc1, cards1) <= GetBetAmount(money, rc2, cards2)
  {
    BetTierMonotone(TrueCount(rc1, RemainingDecks(cards1)), TrueCount(rc2, RemainingDecks(cards2)));
  }

  /** An empty shoe is estimated at 0 decks, and the true count is then
      taken as 0, so the bet is the lowest tier. */
  lemma EmptyShoeBetsMinimum(money: real, runningCount: int)
    requires money >= 25.0
    ensures RemainingDecks(0) == 0.0
    ensures GetBetAmount(money, runningCount, 0) == 25.0
  {
  }

  // ---------------------------------------------------------------------
  // One round
  // ---------------------------------------------------------------------

  /** The state the round starts from, built after the four opening cards. */
  function InitialState(t: Table): State
    requires |t.deck| >= 4
  {
    State(HandValue(PlayerOpening(t.deck)), HandValue([UpCard(t.deck)]), OpeningTable(t).runningCount,
          RemainingDecks(|t.deck| - 4))
  }

  datatype RoundEnd = RoundEnd(table: Table, transitions: seq<Transition>, reward: real)

  /** The fixed strategy's decisions, for a turn entered with `state` as the
      most recently built state: the first decision tests `state`; each later
      one tests the state recorded by the previous transition, which a hit
      built before drawing its card. */
  predicate DecidesOnRecordedState(state: State, trs: seq<Transition>) {
    && |trs| >= 1
    && (trs[0].action == Hit <==> state.playerSum < 17)
    && (forall i :: 0 <= i < |trs| - 1 ==> (trs[i + 1].action == Hit <==> trs[i].state.playerSum < 17))
  }

  /** How the fixed-strategy turn, entered from `state` with the shoe `t`
      and the player's `hand`, records its steps:
      - decisions as `DecidesOnRecordedState` says;
      - a hit records the state before its card: the current hand, the
        dealer's up-card, the count and the estimate before the draw; after
        the first transition that is the previous hit's next state;
      - a stand records the state its decision tested. */
  predicate StepsRecorded(state: State, t: Table, hand: seq<Card>, up: Card, trs: seq<Transition>) {
    && DecidesOnRecordedState(state, trs)
    && (trs[0].action == Hit ==>
          trs[0].state == State(HandValue(hand), HandValue([up]), t.runningCount, RemainingDecks(|t.deck|)))
    && (forall i :: 0 <= i < |trs| - 1 ==> (trs[i + 1].action == Hit ==> trs[i + 1].state == trs[i].next))
    && (Last(trs).action == Stand ==> Last(trs).state == (if |trs| == 1 then state else trs[|trs| - 2].state))
  }

  /** How a turn ends: all but the last transition are zero-reward hits that
      did not bust, their next state showing the up-card only; the last
      carries the reward and shows the count and deck estimate the turn left,
      a bust losing the bet and a stand settled against a dealer total of at
      least 17. */
  predicate TurnOutcome(up: Card, bet: real, e: RoundEnd) {
    var trs := e.transitions;
    && |trs| >= 1
    && (forall i :: 0 <= i < |trs| - 1 ==>
          trs[i].action == Hit && trs[i].reward == 0.0
          && trs[i].next.playerSum <= 21 && trs[i].next.dealerHand == HandValue([up]))
    && Last(trs).reward == e.reward
    && Last(trs).next.runningCount == e.table.runningCount
    && Last(trs).next.remainingDecks == RemainingDecks(|e.table.deck|)
    && (Last(trs).action == Hit ==> Last(trs).next.playerSum > 21 && e.reward == -bet)
    && (Last(trs).action == Stand ==>
          Last(trs).next.dealerHand >= 17
          && e.reward == Settle(Last(trs).next.playerSum, Last(trs).next.dealerHand, bet))
  }

  function ShownOf(tr: Transition): Shown {
    Shown(tr.action, tr.next.playerSum, tr.next.dealerHand, tr.next.runningCount)
  }

  predicate FixedRecord(state: State, t: Table, hand: seq<Card>, up: Card, bet: real, e: RoundEnd) {
    StepsRecorded(state, t, hand, up, e.transitions) && TurnOutcome(up, bet, e)
  }

  /** The deck estimate each hit records, for a turn entered with `cards`
      cards in the shoe: after the `i`-th hit, `cards - (i + 1)` are left. */
  predicate HitDecks(cards: nat, trs: seq<Transition>) {
    forall i :: 0 <= i < |trs| && trs[i].action == Hit ==>
      i + 1 <= cards && trs[i].next.remainingDecks == RemainingDecks(cards - (i + 1))
  }

  /** A hit that shows the estimate after its card, followed by the rest of the turn. */
  lemma HitDecksPrepend(cards: nat, tr: Transition, rest: seq<Transition>, trs: seq<Transition>)
    requires cards >= 1 && tr.next.remainingDecks == RemainingDecks(cards - 1)
    requires HitDecks(cards - 1, rest)
    requires trs == [tr] + rest
    ensures HitDecks(cards, trs)
  {
    forall i | 0 <= i < |trs| && trs[i].action == Hit
      ensures i + 1 <= cards && trs[i].next.remainingDecks == RemainingDecks(cards - (i + 1))
    {
      if i > 0 {
        assert trs[i] == rest[i - 1];
      }
    }
  }

  /** Everything a completed turn promises: its record, that it only dealt
      counted cards off the top, and the totals, counts and deck estimates
      it recorded. */
  predicate TurnPlayed(state: State, t: Table, hand: seq<Card>, dealer: seq<Card>, bet: real, e: RoundEnd)
    requires |dealer| == 2
  {
    && FixedRecord(state, t, hand, dealer[0], bet, e)
    && CountedDraw(t, e.table)
    && TotalsFromShoe(t.deck, hand, dealer, e.table.deck, ShownBy(e.transitions, ShownOf))
    && HitCounts(t, ShownBy(e.transitions, ShownOf))
    && HitDecks(|t.deck|, e.transitions)
  }

  /** The `while True` loop of the fixed strategy: hit while the tested
      state's player sum is below 17, otherwise the dealer's turn and
      settlement. */
  function FixedTurn(t: Table, hand: seq<Card>, dealer: seq<Card>, state: State, bet: real): (r: Result<RoundEnd>)
    requires |dealer| == 2
    ensures r.Failure? ==> r.fault == DeckExhausted
    ensures r.Success? ==> TurnPlayed(state, t, hand, dealer, bet, r.value)
    decreases |t.deck|
  {
    if state.playerSum < 17 then
      var pre := State(HandValue(hand), HandValue([dealer[0]]), t.runningCount, RemainingDecks(|t.deck|));
      var dealt :- Deal(t, true);
      var hand' := hand + [dealt.card];
      var t1 := dealt.table;
      if HandValue(hand') > 21 then
        var next := State(HandValue(hand'), HandValue(dealer), t1.runningCount, RemainingDecks(|t1.deck|));
        var e := RoundEnd(t1, [Transition(pre, Hit, -bet, next)], -bet);
        BustTurn(state, t, hand, dealer, bet, dealt, e);
        Success(e)
      else
        var next := State(HandValue(hand'), HandValue([dealer[0]]), t1.runningCount, RemainingDecks(|t1.deck|));
        var rest :- FixedTurn(t1, hand', dealer, pre, bet);
        var e := RoundEnd(rest.table, [Transition(pre, Hit, 0.0, next)] + rest.transitions, rest.reward);
        HitTurn(state, t, hand, dealer, bet, dealt, rest, e);
        Success(e)
    else
      var d :- DealerTurn(t, dealer);
      DealerDrewStops(t, dealer, d);
      var pv, dv := HandValue(hand), HandValue(d.hand);
      var reward := Settle(pv, dv, bet);
      var e := RoundEnd(d.table, [Transition(state, Stand, reward, State(pv, dv, d.table.runningCount, RemainingDecks(|d.table.deck|)))], reward);
      StandTurn(state, t, hand, dealer, bet, d, e);
      Success(e)
  }

  lemma BustTurn(state: State, t: Table, hand: seq<Card>, dealer: seq<Card>, bet: real, dealt: Dealt, e: RoundEnd)
    requires |dealer| == 2 && state.playerSum < 17
    requires DealtFrom(t, dealt) && HandValue(hand + [dealt.card]) > 21
    requires e == RoundEnd(dealt.table,
                           [Transition(State(HandValue(hand), HandValue([dealer[0]]), t.runningCount, RemainingDecks(|t.deck|)),
                                       Hit, -bet,
                                       State(HandValue(hand + [dealt.card]), HandValue(dealer), dealt.table.runningCount,
                                             RemainingDecks(|dealt.table.deck|)))],
                           -bet)
    ensures TurnPlayed(state, t, hand, dealer, bet, e)
  {
    var tr := e.transitions[0];
    assert Last(e.transitions) == tr;
    assert StepsRecorded(state, t, hand, dealer[0], e.transitions);
    assert TurnOutcome(dealer[0], bet, e);
    DealIsCountedDraw(t, dealt);
    assert dealt.card == t.deck[|t.deck| - 1];
    BustTotals(t.deck, hand, dealer, dealt.table.deck, ShownOf(tr));
    assert ShownBy(e.transitions, ShownOf) == [ShownOf(tr)] == [ShownOf(tr)] + [];
    HitCountsPrepend(t, dealt, ShownOf(tr), [], [ShownOf(tr)]);
    assert HitDecks(|t.deck|, e.transitions);
  }

  lemma HitTurn(state: State, t: Table, hand: seq<Card>, dealer: seq<Card>, bet: real, dealt: Dealt, rest: RoundEnd, e: RoundEnd)
    requires |dealer| == 2 && state.playerSum < 17
    requires DealtFrom(t, dealt) && HandValue(hand + [dealt.card]) <= 21
    requires TurnPlayed(State(HandValue(hand), HandValue([dealer[0]]), t.runningCount, RemainingDecks(|t.deck|)),
                        dealt.table, hand + [dealt.card], dealer, bet, rest)
    requires e == RoundEnd(rest.table,
                           [Transition(State(HandValue(hand), HandValue([dealer[0]]), t.runningCount, RemainingDecks(|t.deck|)),
                                       Hit, 0.0,
                                       State(HandValue(hand + [dealt.card]), HandValue([dealer[0]]), dealt.table.runningCount,
                                             RemainingDecks(|dealt.table.deck|)))]
                           + rest.transitions,
                           rest.reward)
    ensures TurnPlayed(state, t, hand, dealer, bet, e)
  {
    var pre := e.transitions[0].state;
    var next := e.transitions[0].next;
    DealIsCountedDraw(t, dealt);
    CountedDrawTrans(t, dealt.table, rest.table);
    FixedHitPrepends(state, t, hand, dealer[0], bet, pre, next, dealt.table, hand + [dealt.card], rest, e);
    HitShownPrepend(t, hand, dealer, dealt, e.transitions[0], rest, e);
  }

  /** The totals, counts and deck estimates of a turn that starts with a
      counted hit, read off those of the rest of the turn. */
  lemma HitShownPrepend(t: Table, hand: seq<Card>, dealer: seq<Card>, dealt: Dealt, tr: Transition, rest: RoundEnd, e: RoundEnd)
    requires DealtFrom(t, dealt) && tr.action == Hit
    requires tr.next.playerSum == HandValue(hand + [dealt.card])
    requires tr.next.runningCount == dealt.table.runningCount
    requires tr.next.remainingDecks == RemainingDecks(|dealt.table.deck|)
    requires TotalsFromShoe(dealt.table.deck, hand + [dealt.card], dealer, rest.table.deck, ShownBy(rest.transitions, ShownOf))
    requires HitCounts(dealt.table, ShownBy(rest.transitions, ShownOf))
    requires HitDecks(|dealt.table.deck|, rest.transitions)
    requires e.table == rest.table && e.transitions == [tr] + rest.transitions
    ensures TotalsFromShoe(t.deck, hand, dealer, e.table.deck, ShownBy(e.transitions, ShownOf))
    ensures HitCounts(t, ShownBy(e.transitions, ShownOf))
    ensures HitDecks(|t.deck|, e.transitions)
  {
    ShownByPrepend(tr, rest.transitions, ShownOf);
    TotalsPrepend(t.deck, hand, dealer, rest.table.deck, ShownOf(tr), ShownBy(rest.transitions, ShownOf),
                  ShownBy(e.transitions, ShownOf));
    HitCountsPrepend(t, dealt, ShownOf(tr), ShownBy(rest.transitions, ShownOf), ShownBy(e.transitions, ShownOf));
    HitDecksPrepend(|t.deck|, tr, rest.transitions, e.transitions);
  }

  lemma StandTurn(state: State, t: Table, hand: seq<Card>, dealer: seq<Card>, bet: real, d: DealerDone, e: RoundEnd)
    requires |dealer| == 2 && state.playerSum >= 17
    requires CountedDraw(t, d.table) && HandValue(d.hand) >= 17
    requires d.hand == dealer + TopCards(t.deck, |t.deck| - |d.table.deck|)
    requires BelowSeventeen(t.deck, dealer, |t.deck| - |d.table.deck|)
    requires e == RoundEnd(d.table,
                           [Transition(state, Stand, Settle(HandValue(hand), HandValue(d.hand), bet),
                                       State(HandValue(hand), HandValue(d.hand), d.table.runningCount,
                                             RemainingDecks(|d.table.deck|)))],
                           Settle(HandValue(hand), HandValue(d.hand), bet))
    ensures TurnPlayed(state, t, hand, dealer, bet, e)
  {
    var tr := e.transitions[0];
    assert Last(e.transitions) == tr;
    assert StepsRecorded(state, t, hand, dealer[0], e.transitions);
    assert TurnOutcome(dealer[0], bet, e);
    StandTotals(t.deck, hand, dealer, d.table.deck, ShownOf(tr));
    assert ShownBy(e.transitions, ShownOf) == [ShownOf(tr)];
    assert HitCounts(t, [ShownOf(tr)]);
    assert HitDecks(|t.deck|, e.transitions);
  }

  /** The hand the lagging decision tests: the opening pair at first, and
      after a hit the hand as it was before that hit's card. */
  function Tested(hand: seq<Card>): seq<Card>
    requires |hand| >= 2
  {
    if |hand| == 2 then hand else hand[..|hand| - 1]
  }

  /** A turn never runs out of cards while the hand and the shoe hold 23
      cards between them. The player hits only while the tested hand is
      below 17, and a hand that stays below 17 card by card has at most 11
      cards; so the hand stops by 13 cards and leaves the dealer the 10 it
      may need. */
  lemma {:induction false} FixedTurnNeverRunsOut(t: Table, hand: seq<Card>, dealer: seq<Card>, state: State, bet: real)
    requires |dealer| == 2 && 2 <= |hand| <= 13 && |hand| + |t.deck| >= 23
    requires state.playerSum == HandValue(Tested(hand))
    requires HandValue(Tested(hand)) < 17 ==> LowShape(Tested(hand))
    ensures FixedTurn(t, hand, dealer, state, bet).Success?
    decreases |t.deck|
  {
    if state.playerSum < 17 {
      LowShapeIsShort(Tested(hand));
      var dealt := Deal(t, true).value;
      var hand' := hand + [dealt.card];
      if HandValue(hand') <= 21 {
        TestedAfterHit(hand, dealt.card);
        var pre := State(HandValue(hand), HandValue([dealer[0]]), t.runningCount, RemainingDecks(|t.deck|));
        FixedTurnNeverRunsOut(dealt.table, hand', dealer, pre, bet);
      }
    } else {
      DealerTurnSucceeds(t, dealer);
    }
  }

  /** After a hit the decision tests the hand before the hit's card, which
      keeps the shape when it is below 17. */
  lemma TestedAfterHit(hand: seq<Card>, c: Card)
    requires |hand| >= 2 && HandValue(Tested(hand)) < 17 && LowShape(Tested(hand))
    ensures Tested(hand + [c]) == hand
    ensures HandValue(hand) < 17 ==> LowShape(hand)
  {
    assert (hand + [c])[..|hand|] == hand;
    if HandValue(hand) < 17 && |hand| > 2 {
      assert Tested(hand) + [hand[|hand| - 1]] == hand;
      LowShapeGrows(Tested(hand), hand[|hand| - 1]);
    }
  }

  lemma FixedHitPrepends(state: State, t: Table, hand: seq<Card>, up: Card, bet: real,
                         pre: State, next: State, t1: Table, hand': seq<Card>, rest: RoundEnd, e: RoundEnd)
    requires state.playerSum < 17
    requires pre == State(HandValue(hand), HandValue([up]), t.runningCount, RemainingDecks(|t.deck|))
    requires next == State(HandValue(hand'), HandValue([up]), t1.runningCount, RemainingDecks(|t1.deck|))
    requires HandValue(hand') <= 21
    requires FixedRecord(pre, t1, hand', up, bet, rest)
    requires e == RoundEnd(rest.table, [Transition(pre, Hit, 0.0, next)] + rest.transitions, rest.reward)
    ensures FixedRecord(state, t, hand, up, bet, e)
  {
    StepsPrepend(state, t, hand, up, pre, next, t1, hand', rest.transitions, e.transitions);
    OutcomePrepend(up, bet, pre, next, rest, e);
  }

  lemma StepsPrepend(state: State, t: Table, hand: seq<Card>, up: Card,
                     pre: State, next: State, t1: Table, hand': seq<Card>,
                     rest: seq<Transition>, trs: seq<Transition>)
    requires state.playerSum < 17
    requires pre == State(HandValue(hand), HandValue([up]), t.runningCount, RemainingDecks(|t.deck|))
    requires next == State(HandValue(hand'), HandValue([up]), t1.runningCount, RemainingDecks(|t1.deck|))
    requires StepsRecorded(pre, t1, hand', up, rest)
    requires trs == [Transition(pre, Hit, 0.0, next)] + rest
    ensures StepsRecorded(state, t, hand, up, trs)
  {
    assert forall i :: 0 <= i < |rest| ==> trs[i + 1] == rest[i];
    DecidesPrepend(state, pre, next, rest, trs);
    assert Last(trs) == Last(rest);
    if Last(trs).action == Stand {
      if |rest| == 1 {
        assert trs[|trs| - 2] == trs[0];
      } else {
        assert trs[|trs| - 2] == rest[|rest| - 2];
      }
    }
    assert forall i :: 0 <= i < |trs| - 1 ==> (trs[i + 1].action == Hit ==> trs[i + 1].state == trs[i].next) by {
      forall i | 0 <= i < |trs| - 1 && trs[i + 1].action == Hit ensures trs[i + 1].state == trs[i].next {
        if i > 0 {
          assert trs[i] == rest[i - 1];
        }
      }
    }
  }

  lemma DecidesPrepend(state: State, pre: State, next: State, rest: seq<Transition>, trs: seq<Transition>)
    requires state.playerSum < 17
    requires DecidesOnRecordedState(pre, rest)
    requires trs == [Transition(pre, Hit, 0.0, next)] + rest
    ensures DecidesOnRecordedState(state, trs)
  {
    forall i | 0 <= i < |trs| - 1 ensures trs[i + 1].action == Hit <==> trs[i].state.playerSum < 17 {
      assert trs[i + 1] == rest[i];
      if i > 0 {
        assert trs[i] == rest[i - 1];
      }
    }
  }

  lemma OutcomePrepend(up: Card, bet: real, pre: State, next: State, rest: RoundEnd, e: RoundEnd)
    requires next.playerSum <= 21 && next.dealerHand == HandValue([up])
    requires TurnOutcome(up, bet, rest)
    requires e == RoundEnd(rest.table, [Transition(pre, Hit, 0.0, next)] + rest.transitions, rest.reward)
    ensures TurnOutcome(up, bet, e)
  {
    var trs := e.transitions;
    assert forall i :: 0 <= i < |rest.transitions| ==> trs[i + 1] == rest.transitions[i];
    assert Last(trs) == Last(rest.transitions);
  }

  /** What `play_round` records in a round that completes, with `trs` the
      transitions it appended and `bet` the bet `get_bet_amount` chose
      before the deal:
      - all but the last transition are zero-reward hits, and the last
        carries the round's reward;
      - every card dealt is counted exactly once, except a hole card that is
        never revealed (it is revealed only after a natural);
      - a natural is a single stand paid 3:2, or a push when the dealer's
        two cards also make 21;
      - otherwise the first transition starts from the initial state, the
        player stands at once exactly when the initial total is at least 17,
        the decisions follow `DecidesOnRecordedState`, a bust loses the bet
        and a stand is settled against a dealer total of at least 17. */
  predicate FixedRound(g: Game<Transition>, g': Game<Transition>, reward: real)
    requires |g.table.deck| >= 4
    requires |g'.table.deck| <= |g.table.deck| && |g.history| <= |g'.history|
  {
    var deck := g.table.deck;
    var bet := GetBetAmount(g.money, g.table.runningCount, |deck|);
    var trs := g'.history[|g.history|..];
    && |trs| >= 1
    && (forall i :: 0 <= i < |trs| - 1 ==> trs[i].action == Hit && trs[i].reward == 0.0)
    && Last(trs).reward == reward
    && Last(trs).next.runningCount == g'.table.runningCount
    && Last(trs).next.remainingDecks == RemainingDecks(|g'.table.deck|)
    && g'.table.runningCount
         == g.table.runningCount + HiLoTotal(deck[|g'.table.deck|..])
            - (if IsNatural(deck) then 0 else HiLo(HoleCard(deck).rank))
    && (IsNatural(deck) ==> NaturalRecorded(g.table, bet, trs, |g'.table.deck|, reward))
    && (!IsNatural(deck) ==> PlayedRecorded(g.table, bet, trs, g'.table.deck, reward))
  }

  /** A natural: one stand from the initial state, showing 21 against the
      dealer's two cards, and no card dealt after the opening four. */
  predicate NaturalRecorded(t: Table, bet: real, trs: seq<Transition>, left: nat, reward: real)
    requires |t.deck| >= 4
  {
    var dealer := [UpCard(t.deck), HoleCard(t.deck)];
    && |trs| == 1 && trs[0].action == Stand && trs[0].state == InitialState(t)
    && left == |t.deck| - 4
    && trs[0].next.playerSum == 21 && trs[0].next.dealerHand == HandValue(dealer)
    && reward == (if HandValue(dealer) == 21 then 0.0 else bet * 1.5)
  }

  /** A round without a natural, played by the fixed strategy from the
      initial state on the shoe left after the opening deal. */
  predicate PlayedRecorded(t: Table, bet: real, trs: seq<Transition>, left: seq<Card>, reward: real)
    requires |t.deck| >= 4
  {
    var s0 := InitialState(t);
    && |trs| >= 1
    && trs[0].state == s0
    && (trs[0].action == Stand <==> s0.playerSum >= 17)
    && StepsRecorded(s0, OpeningTable(t), PlayerOpening(t.deck), UpCard(t.deck), trs)
    && (forall i :: 0 <= i < |trs| - 1 ==> trs[i].next.playerSum <= 21 && trs[i].next.dealerHand == HandValue([UpCard(t.deck)]))
    && TotalsFromShoe(t.deck[..|t.deck| - 4], PlayerOpening(t.deck), [UpCard(t.deck), HoleCard(t.deck)], left, ShownBy(trs, ShownOf))
    && HitCounts(OpeningTable(t), ShownBy(trs, ShownOf))
    && HitDecks(|t.deck| - 4, trs)
    && (Last(trs).action == Hit ==> Last(trs).next.playerSum > 21 && reward == -bet)
    && (Last(trs).action == Stand ==>
          Last(trs).next.dealerHand >= 17
          && reward == Settle(Last(trs).next.playerSum, Last(trs).next.dealerHand, bet))
  }

  /** The fixed-strategy turn, entered after the opening deal from the
      initial state, plays the round as `PlayedRecorded` says. */
  lemma PlayedFromTurn(t: Table, o: Opening, bet: real, e: RoundEnd)
    requires |t.deck| >= 4
    requires o.player == PlayerOpening(t.deck) && o.dealer == [UpCard(t.deck), HoleCard(t.deck)]
    requires o.table == OpeningTable(t)
    requires InitialState(t) == State(HandValue(o.player), HandValue([o.dealer[0]]), o.table.runningCount,
                                      RemainingDecks(|o.table.deck|))
    requires TurnPlayed(InitialState(t), o.table, o.player, o.dealer, bet, e)
    ensures CountedDraw(o.table, e.table)
    ensures TurnOutcome(UpCard(t.deck), bet, e)
    ensures PlayedRecorded(t, bet, e.transitions, e.table.deck, e.reward)
  {
    var trs, s0 := e.transitions, InitialState(t);
    assert StepsRecorded(s0, o.table, o.player, o.dealer[0], trs);
    assert TurnOutcome(o.dealer[0], bet, e);
    assert TotalsFromShoe(o.table.deck, o.player, o.dealer, e.table.deck, ShownBy(trs, ShownOf));
    assert HitCounts(o.table, ShownBy(trs, ShownOf));
    assert HitDecks(|o.table.deck|, trs);
    assert trs[0].action == Stand ==> |trs| == 1;
  }

  /** `play_round` of the count-based engine. */
  function PlayRound(g: Game<Transition>): (r: Result<(Game<Transition>, real)>)
    ensures |g.table.deck| < 4 ==> r == Failure(DeckExhausted)
    ensures r.Failure? ==> r.fault == DeckExhausted
    ensures r.Success? ==> RoundBooked(g, r.value.0, r.value.1)
    ensures r.Success? ==> FixedRound(g, r.value.0, r.value.1)
  {
    var bet := GetBetAmount(g.money, g.table.runningCount, |g.table.deck|);
    var o :- DealOpening(g.table);
    var s0 := State(HandValue(o.player), HandValue([o.dealer[0]]), o.table.runningCount, RemainingDecks(|o.table.deck|));
    OpenedCount(g.table, o);
    assert s0 == InitialState(g.table);
    if HandValue(o.player) == 21 then
      var reward := if HandValue(o.dealer) == 21 then 0.0 else bet * 1.5;
      var t := o.table.(runningCount := UpdateCount(o.table.runningCount, o.dealer[1]));
      var tr := Transition(s0, Stand, reward, State(HandValue(o.player), HandValue(o.dealer), t.runningCount, RemainingDecks(|t.deck|)));
      var g' := EndRound(g, t, [tr], reward);
      NaturalRound(g, o, tr, g', reward);
      Success((g', reward))
    else
      var e :- FixedTurn(o.table, o.player, o.dealer, s0, bet);
      var g' := EndRound(g, e.table, e.transitions, e.reward);
      PlayedRound(g, o, e, g');
      Success((g', e.reward))
  }

  lemma NaturalRound(g: Game<Transition>, o: Opening, tr: Transition, g': Game<Transition>, reward: real)
    requires OpenedFrom(g.table, o)
    requires HandValue(o.player) == 21
    requires reward == (if HandValue(o.dealer) == 21 then 0.0
                        else GetBetAmount(g.money, g.table.runningCount, |g.table.deck|) * 1.5)
    requires tr.state == InitialState(g.table) && tr.action == Stand && tr.reward == reward
    requires tr.next.playerSum == 21 && tr.next.dealerHand == HandValue(o.dealer)
    requires tr.next.runningCount == UpdateCount(o.table.runningCount, o.dealer[1])
    requires tr.next.remainingDecks == RemainingDecks(|o.table.deck|)
    requires g' == EndRound(g, o.table.(runningCount := UpdateCount(o.table.runningCount, o.dealer[1])), [tr], reward)
    ensures RoundBooked(g, g', reward)
    ensures FixedRound(g, g', reward)
  {
    assert g'.history[|g.history|..] == [tr];
    assert g.table.deck[|g'.table.deck|..] == g.table.deck[|g.table.deck| - 4..];
    assert g'.history[..|g.history|] == g.history;
  }

  lemma PlayedRound(g: Game<Transition>, o: Opening, e: RoundEnd, g': Game<Transition>)
    requires OpenedFrom(g.table, o)
    requires HandValue(o.player) != 21
    requires InitialState(g.table) == State(HandValue(o.player), HandValue([o.dealer[0]]), o.table.runningCount,
                                            RemainingDecks(|o.table.deck|))
    requires TurnPlayed(InitialState(g.table), o.table, o.player, o.dealer,
                        GetBetAmount(g.money, g.table.runningCount, |g.table.deck|), e)
    requires g' == EndRound(g, e.table, e.transitions, e.reward)
    ensures RoundBooked(g, g', e.reward)
    ensures FixedRound(g, g', e.reward)
  {
    var bet := GetBetAmount(g.money, g.table.runningCount, |g.table.deck|);
    OpenedCount(g.table, o);
    PlayedFromTurn(g.table, o, bet, e);
    OpeningThenDraws(g.table, o, e.table);
    TurnBooked(g, e.table, e.transitions, e.reward, g');
    PlayedRoundRecords(g, e, g', bet);
  }

  lemma PlayedRoundRecords(g: Game<Transition>, e: RoundEnd, g': Game<Transition>, bet: real)
    requires |g.table.deck| >= 4 && !IsNatural(g.table.deck)
    requires bet == GetBetAmount(g.money, g.table.runningCount, |g.table.deck|)
    requires |e.table.deck| + 4 <= |g.table.deck|
    requires e.table.runningCount + HiLo(HoleCard(g.table.deck).rank)
               == g.table.runningCount + HiLoTotal(g.table.deck[|e.table.deck|..])
    requires TurnOutcome(UpCard(g.table.deck), bet, e)
    requires PlayedRecorded(g.table, bet, e.transitions, e.table.deck, e.reward)
    requires g' == EndRound(g, e.table, e.transitions, e.reward)
    ensures FixedRound(g, g', e.reward)
  {
    assert g'.history[|g.history|..] == e.transitions;
  }

  /** A round on a shoe of at least 25 cards always completes: the opening
      takes four and the turn needs at most 21 more. */
  lemma PlayRoundNeverRunsOut(g: Game<Transition>)
    requires |g.table.deck| >= 25
    ensures PlayRound(g).Success?
  {
    var bet := GetBetAmount(g.money, g.table.runningCount, |g.table.deck|);
    var o := DealOpening(g.table).value;
    var s0 := State(HandValue(o.player), HandValue([o.dealer[0]]), o.table.runningCount, RemainingDecks(|o.table.deck|));
    if HandValue(o.player) != 21 {
      if HandValue(o.player) < 17 {
        LowShapeOfPair(o.player);
      }
      FixedTurnNeverRunsOut(o.table, o.player, o.dealer, s0, bet);
    }
  }

  /** The state the `i`-th hit of a round without a natural leads to, in a
      round dealt from `t`: the opening cards plus the top `i + 1` cards left
      after the deal, the up-card alone, the count with all of those counted,
      and the estimate for the cards then left. A hit after it records that
      same state. */
  predicate HitLeadsTo(t: Table, trs: seq<Transition>, i: nat)
    requires |t.deck| >= 4 && i < |trs| - 1
  {
    var t0, next := OpeningTable(t), trs[i].next;
    && i + 1 <= |t0.deck|
    && next.playerSum == HandValue(PlayerOpening(t.deck) + TopCards(t0.deck, i + 1))
    && next.dealerHand == HandValue([UpCard(t.deck)])
    && next.runningCount == t0.runningCount + HiLoTotal(t0.deck[|t0.deck| - (i + 1)..])
    && next.remainingDecks == RemainingDecks(|t0.deck| - (i + 1))
    && (trs[i + 1].action == Hit ==> trs[i + 1].state == next)
  }

  /** Every hit of a round without a natural that did not end it leads to
      the state `HitLeadsTo` describes. */
  lemma HitNextState(g: Game<Transition>, g': Game<Transition>, reward: real, i: nat)
    requires |g.table.deck| >= 4 && !IsNatural(g.table.deck)
    requires |g'.table.deck| <= |g.table.deck| && |g.history| <= |g'.history|
    requires FixedRound(g, g', reward)
    requires i < |g'.history| - |g.history| - 1
    ensures HitLeadsTo(g.table, g'.history[|g.history|..], i)
  {
    var t, trs := g.table, g'.history[|g.history|..];
    var bet := GetBetAmount(g.money, t.runningCount, |t.deck|);
    assert trs[i].action == Hit && PlayedRecorded(t, bet, trs, g'.table.deck, reward);
    PlayedHitFacts(t, bet, trs, g'.table.deck, reward, i);
    HitStateRecorded(t, trs, i);
  }

  /** The facts `PlayedRecorded` gives about a hit that did not end the round. */
  lemma PlayedHitFacts(t: Table, bet: real, trs: seq<Transition>, left: seq<Card>, reward: real, i: nat)
    requires |t.deck| >= 4 && PlayedRecorded(t, bet, trs, left, reward) && i < |trs| - 1
    ensures HitTotals(OpeningTable(t).deck, PlayerOpening(t.deck), ShownBy(trs, ShownOf))
    ensures HitCounts(OpeningTable(t), ShownBy(trs, ShownOf))
    ensures HitDecks(|t.deck| - 4, trs)
    ensures trs[i].next.dealerHand == HandValue([UpCard(t.deck)])
    ensures trs[i + 1].action == Hit ==> trs[i + 1].state == trs[i].next
  {
    var shown := ShownBy(trs, ShownOf);
    assert TotalsFromShoe(OpeningTable(t).deck, PlayerOpening(t.deck), [UpCard(t.deck), HoleCard(t.deck)], left, shown);
    assert StepsRecorded(InitialState(t), OpeningTable(t), PlayerOpening(t.deck), UpCard(t.deck), trs);
  }

  lemma HitStateRecorded(t: Table, trs: seq<Transition>, i: nat)
    requires |t.deck| >= 4 && i < |trs| - 1 && trs[i].action == Hit
    requires HitTotals(OpeningTable(t).deck, PlayerOpening(t.deck), ShownBy(trs, ShownOf))
    requires HitCounts(OpeningTable(t), ShownBy(trs, ShownOf))
    requires HitDecks(|t.deck| - 4, trs)
    requires trs[i].next.dealerHand == HandValue([UpCard(t.deck)])
    requires trs[i + 1].action == Hit ==> trs[i + 1].state == trs[i].next
    ensures HitLeadsTo(t, trs, i)
  {
    var shown := ShownBy(trs, ShownOf);
    assert shown[i] == ShownOf(trs[i]);
  }

  /** The decision lags one card behind: a player who hits from an initial
      total below 17 and does not bust on that card hits again, whatever the
      card brought the total to. */
  lemma HitsAgainAfterFirstDraw(g: Game<Transition>, g': Game<Transition>, reward: real)
    requires PlayRound(g) == Success((g', reward))
    requires |g.table.deck| >= 4 && !IsNatural(g.table.deck)
    requires InitialState(g.table).playerSum < 17
    ensures var trs := g'.history[|g.history|..];
            && trs[0].action == Hit
            && (trs[0].next.playerSum <= 21 ==> |trs| >= 2 && trs[1].action == Hit)
  {
    var t, trs := g.table, g'.history[|g.history|..];
    var bet := GetBetAmount(g.money, t.runningCount, |t.deck|);
    assert PlayedRecorded(t, bet, trs, g'.table.deck, reward);
    var s0 := InitialState(t);
    assert trs[0].state == s0 && DecidesOnRecordedState(s0, trs);
    if |trs| == 1 {
      assert Last(trs) == trs[0];
    } else {
      assert trs[1].action == Hit <==> trs[0].state.playerSum < 17;
    }
  }

  // ---------------------------------------------------------------------
  // The game loop
  // ---------------------------------------------------------------------

  /** The reward of a round is one of: nothing, the bet, minus the bet, or
      one and a half times the bet. */
  lemma RoundRewardValues(g: Game<Transition>)
    requires PlayRound(g).Success?
    ensures var bet := GetBetAmount(g.money, g.table.runningCount, |g.table.deck|);
            PlayRound(g).value.1 in {0.0, bet, -bet, bet * 1.5}
  {
    var (g', reward) := PlayRound(g).value;
    var bet := GetBetAmount(g.money, g.table.runningCount, |g.table.deck|);
    var trs := g'.history[|g.history|..];
    if !IsNatural(g.table.deck) && Last(trs).action == Stand {
      var p, d := Last(trs).next.playerSum, Last(trs).next.dealerHand;
      assert reward == Settle(p, d, bet);
    }
  }

  /** A round that is allowed to start moves the money within what one
      round can: the bet is at most the money and the reward at most one
      and a half times the bet. */
  lemma RoundKeepsMoney(g: Game<Transition>)
    requires KeepPlaying(g) && PlayRound(g).Success?
    ensures RoundMoney(g.money, PlayRound(g).value.0.money)
  {
    RoundRewardValues(g);
  }

  // ---------------------------------------------------------------------
  // The game loop
  // ---------------------------------------------------------------------

  /** `play_game`: play rounds while there is money left and more than 26
      cards in the shoe. Every round takes at least four cards, so the loop
      ends, and a round allowed to start has the 25 cards it may need, so
      the game never fails and no failure is modelled. */
  function PlayGame(g: Game<Transition>): (g': Game<Transition>)
    ensures !KeepPlaying(g') && GameExtends(g, g')
    ensures KeepPlaying(g) ==> |g'.moneyHistory| > |g.moneyHistory|
    ensures !KeepPlaying(g) ==> g' == g
    decreases |g.table.deck|
  {
    if !KeepPlaying(g) then
      GameExtendsRefl(g);
      g
    else
      PlayRoundNeverRunsOut(g);
      var round := PlayRound(g).value;
      var rest := PlayGame(round.0);
      RoundKeepsMoney(g);
      GameExtendsByRound(g, round.0, round.1, rest);
      rest
  }

  /** `g2` is where the game loop stands after zero or more complete rounds
      from `g`, each allowed to start. */
  predicate RoundsFrom(g: Game<Transition>, g2: Game<Transition>)
    decreases |g.table.deck|
  {
    || g2 == g
    || (KeepPlaying(g) && PlayRound(g).Success? && RoundsFrom(PlayRound(g).value.0, g2))
  }

  /** Complete rounds only extend the record. */
  lemma {:induction false} RoundsExtend(g: Game<Transition>, g2: Game<Transition>)
    requires RoundsFrom(g, g2)
    ensures GameExtends(g, g2)
    decreases |g.table.deck|
  {
    if g2 == g {
      GameExtendsRefl(g);
    } else {
      var round := PlayRound(g).value;
      RoundsExtend(round.0, g2);
      RoundKeepsMoney(g);
      GameExtendsByRound(g, round.0, round.1, g2);
    }
  }

  /** The finished game is reached from the start by complete rounds. */
  lemma {:induction false} PlayGameIsRounds(g: Game<Transition>)
    ensures RoundsFrom(g, PlayGame(g))
    decreases |g.table.deck|
  {
    if KeepPlaying(g) {
      PlayRoundNeverRunsOut(g);
      var g1 := PlayRound(g).value.0;
      PlayGameIsRounds(g1);
      assert PlayGame(g) == PlayGame(g1);
    }
  }
}
